=== FILE: README.md ===
# rkd — a verified model of the hotkey daemon's core

rkd reads raw keyboard events from Linux input device files. It tracks which
keys are held and runs a configured command when the held keys match a
configured combination. This project models the pure logic of that daemon in
Dafny and proves properties of the model. The model covers four parts:

- **Key model** (`src/key.rs`, module `Keys`):
  - the `Key` enum;
  - `Key::from_code`, which maps kernel scan codes to keys and folds left
    and right modifiers together;
  - `Key::from_str`, which maps a configuration token to zero, one or two
    keys.
- **Configuration grammar** (`src/config.rs`, module `Config`):
  - `Exec::new`, and `Exec::run` with its first-launch flag;
  - the line classifiers `Cfg::is_keybinding` and `Cfg::is_cmd`;
  - `Cfg::parse_keybinding`;
  - the line loop of `Cfg::parse`, as a fold over the file's lines.
- **Listener step** (`src/lib.rs` `listen`, module `Listener`): one read
  updates the ordered sequence of held keys, and every key event is followed
  by a lookup.
- **Older input module** (`src/input.rs`, module `Input`):
  - its own side-keeping key table;
  - the `InputEvent` predicates;
  - the 24-byte `struct input_event` layout;
  - `Keyboard::new` over one block of `/proc/bus/input/devices`;
  - the block filter of `read_input_devices`;
  - the `shift_pressed` counter of its `listen`.

Helper modules:

- `Wrappers`: `Option`, and `Checked`, which stands for a Rust panic.
- `Ints`: fixed-width integers and their little-endian byte codecs.
- `Strings`: the `str` operations the source relies on:
  - `split`, `contains`, `starts_with`;
  - `trim`, with Unicode `White_Space`;
  - `to_lowercase`;
  - an order-keeping filter.

Three calls in `src/` have no definition there. The model takes each one as
a parameter:

- `Key::from(&str)`, called by `parse_keybinding` (`src/config.rs:99`), is
  the parameter `keyOf`. No `From<&str>` impl for either key enum exists in
  `src/`.
- `InputEvent::new`, called by `listen` (`src/lib.rs:80`), is the parameter
  `decode` (a `Listener.Decoder`). `src/input.rs` defines `InputEvent`
  with no `new`.
- `keybindings.get_mut(&key_combination)` (`src/lib.rs:107`) is called on
  `Keybindings`, the `Vec<Keybinding>` alias of `src/config.rs:45`, which
  has no lookup by key combination. The model records only the sequence
  handed to it.

`src/lib.rs` glob-imports both `key` and `input`, and each defines a `Key`
enum. So the `Key` of `Vec<Key>` in `listen` (`src/lib.rs:71`) is
ambiguous, and `InputEvent::new`, which would produce the events, is not
defined. The listener is therefore generic in the key type, and the
parameter `asKey` turns a code into a key. The only `as_enum` in `src/` is
the one of `src/input.rs:303-305`, modelled as `Input.AsKey`.

## Behaviour to note

Each of these points is a property of the program, proved of the model.

- **Lookups.** A lookup follows every key event, not only presses.
  - Releases and auto-repeats (value 2) are looked up too.
  - A held combination is therefore looked up again on every repeat.
  - `Listener.RepeatIsLookedUp` and `Listener.ReleaseIsLookedUp` show this.
- **Held keys.** The held keys are an ordered `Vec`, not a set.
  - A press appends the key even when it is already held.
  - A release removes only the first copy.
  - The lookup is handed the held keys as an ordered sequence.
- **Combinations.** `parse_keybinding` checks only that the first token is
  a generic modifier.
  - Later tokens are not validated.
  - Duplicate bindings are kept in file order (`Config.DuplicatesKept`).
- **Launches.** `Exec` keeps a `_first_launch` flag and attaches the
  arguments only on the first run.
  - `Command::args` appends to the stored command, so later spawns still
    carry the arguments (`Config.LaunchesUseConfiguredArgs`).
- **Read errors.** The two listeners treat a failed read differently.
  - `listen` in `src/lib.rs` logs it and keeps reading
    (`Listener.ListenSkipsNonRecords`).
  - `listen` in `src/input.rs` panics (`Input.ListenShiftCounts`).
- **Name lines.** `Keyboard::new` panics when *any* line of a block is
  exactly `N: Name="`, not only the last such line
  (`Input.ScanLinesSpec`).

## Model

| member | source | states |
|---|---|---|
| Keys.FromCode | src/key.rs:55-142 | `Key::from_code`, the scan-code table; its properties are the next four rows |
| Keys.FromCodeTotal | src/key.rs:55-142 | `from_code` is total: it yields `UK` exactly for the codes its table does not list, and it never yields a side-specific modifier or a brightness key |
| Keys.FromCodeInvertsCodeOf | src/key.rs:57-140 | every key that has a kernel scan code (given by the independent table `CodeOf`) comes back from `from_code` applied to that code |
| Keys.GenericModifierCodes | src/key.rs:86-139 | 29 and 97 give `Ctrl`, 42 and 54 give `Shift`, 56 and 100 give `Alt`, 125 gives `Super`, and no other code gives any of them |
| Keys.FunctionKeyCodes | src/key.rs:124-125 | `F11` comes exactly from 87 and `F12` exactly from 88, the kernel's `KEY_F11`/`KEY_F12` |
| Keys.Resolve | src/key.rs:143-306 | `from_str` parameterised by the guard's name list; its shape is `Keys.ResolveWellShaped` |
| Keys.FromStr | src/key.rs:143-306 | `from_str` reaches `unreachable!()` exactly when the lower-cased token equals the newline-holding guard literal. Otherwise it returns at most two keys with no side-specific modifier; a pair is `Shift` then a real non-`Shift` key. The empty token gives no keys |
| Keys.IsShiftedChar | src/key.rs:225-249 | the characters that get `Shift` in front; every one of them has a real key (`Keys.CharKeyShape`), and none is above `~` (`Keys.CharKeyAboveTilde`) |
| Keys.CharKey | src/key.rs:253-302 | the character table; it never gives a modifier (`Keys.CharKeyShape`), gives `UK` above `~` (`Keys.CharKeyAboveTilde`), and maps `k`/`K`, `x`/`X` and `+` as `Keys.CharKeyOfK`, `Keys.CharKeyOfX` and `Keys.ShiftedPunctuationToken` show |
| Keys.FromStrNamed | src/key.rs:185-217 | a token whose lower-cased form is a guard name (other than the split one) yields exactly its named key; `ctrl`/`shift`/`alt`/`super` come back as the generic modifiers |
| Keys.GuardMatchesArmsButOne | src/key.rs:149-217 | the names the guard accepts and the names the match handles differ only in the volume-down name: the guard has the newline form, the match has the joined one |
| Keys.FromStrUnnamed | src/key.rs:222-304 | a non-empty token that is not a guard name yields the key of its first character, preceded by `Shift` when that character is a shifted one |
| Keys.FromStrOneChar | src/key.rs:224-302 | a one-character token is read as that character: its key, with `Shift` first for shifted characters |
| Keys.FromStrFirstCharOnly | src/key.rs:222-304 | two non-name tokens with the same first character give the same keys |
| Keys.CharKeyShape | src/key.rs:225-302 | a character's key is never a modifier, and every shifted character has a real key |
| Keys.ResolveWellShaped | src/key.rs:185-304 | whatever the guard set, a resolved token has the shape `FromStr` promises |
| Keys.CharKeyAboveTilde | src/key.rs:225-301 | a character above `~` (DEL and everything beyond ASCII) has no key and is not shifted |
| Keys.CharKeyOfK | src/key.rs:285 | `k` and `K` both give `K` |
| Keys.CharKeyOfX | src/key.rs:298 | `x` and `X` both give `X` |
| Keys.PlainLetterToken | src/key.rs:224-302 | the token `k` yields `[K]` |
| Keys.ShiftedLetterToken | src/key.rs:224-302 | the token `K` yields `[Shift, K]` |
| Keys.ShiftedPunctuationToken | src/key.rs:224-302 | the token `+` yields `[Shift, Equal]` |
| Keys.UnmappedCharToken | src/key.rs:224-302 | the token `é` yields `[UK]` |
| Keys.UnmappedFirstChar | src/key.rs:222-304 | any token whose first character has no key yields `[UK]` alone, because no guard name starts with such a character |
| Keys.LowerVolumeNameIsNotNamed | src/key.rs:176-177 | as written, `xf86audiolowervolume` is not a guard name and yields `[X]` |
| Keys.CapitalisedLowerVolumeName | src/key.rs:176-177 | as written, `XF86AudioLowerVolume` yields `[Shift, X]` |
| Keys.SplitNamePanics | src/key.rs:176-220 | reaching the `unreachable!()` arm needs a line feed in the token; a token without one always yields keys |
| Keys.FromStrFixed | src/key.rs:149-217 | with the guard literal joined, no token panics, and every named token yields its key |
| Keys.FixedLowerVolumeIsNamed | src/key.rs:213 | with the literal joined, `xf86audiolowervolume` yields `[XF86AudioLowerVolume]` |
| Keys.FromStrAgreesWithFixed | src/key.rs:143-306 | the written and the corrected `from_str` agree on every token other than the two volume-down spellings |
| Input.FromCode | src/input.rs:61-141 | the older scan-code table, as written; its properties are the next three rows |
| Input.FromCodeTotal | src/input.rs:61-141 | the older table yields `UK` exactly off its listed codes |
| Input.SidedModifierCodes | src/input.rs:92-133 | the older table keeps sides: 29/97 give `LCtrl`/`RCtrl`, 42/54 give `LShift`/`RShift`, 56/100 give `LAlt`/`RAlt`, each from that code only |
| Input.FunctionKeyCodes | src/input.rs:130-131 | as written, the older table gives `F11` exactly from 69 and `F12` exactly from 70 |
| Input.FixedFunctionKeyCodes | src/input.rs:130-131 | the corrected table gives `F11`/`F12` exactly from 87/88 and agrees with the written one at every other code except 69 and 70 |
| Input.FromCodeFixed | src/input.rs:130-131 | the older table with `F11`/`F12` moved to 87/88 and 69/70 sent to `UK`; its property is `Input.FixedFunctionKeyCodes` |
| Input.AsKey | src/input.rs:303-305 | `as_enum`: the key of the event's code by the table as written, so code 69 gives `F11` |
| Input.AsKeyFixed | src/input.rs:303-305 | `as_enum` over the corrected table |
| Input.FixedTableKeepsModifiers | src/input.rs:270-305 | over the corrected table the four modifier predicates hold for exactly the same events; only `F11`/`F12` move, to 87/88 |
| Input.IsShift | src/input.rs:270-275 | `is_shift` holds exactly for codes 42 and 54 |
| Input.IsCtrl | src/input.rs:276-281 | `is_ctrl` holds exactly for codes 29 and 97 |
| Input.IsAlt | src/input.rs:282-287 | `is_alt` holds exactly for codes 56 and 100 |
| Input.IsSuper | src/input.rs:288-293 | `is_super` holds exactly for code 125 |
| Input.IsKeyEvent | src/input.rs:294-296 | `is_key_event`: the event type is `EV_KEY` |
| Input.IsKeyPress | src/input.rs:297-299 | `is_key_press`: the value is 1; never together with a release, and not for an auto-repeat (`Input.PressReleaseExclusive`) |
| Input.IsKeyRelease | src/input.rs:300-302 | `is_key_release`: the value is 0; never together with a press, and not for an auto-repeat (`Input.PressReleaseExclusive`) |
| Input.PressReleaseExclusive | src/input.rs:294-302 | press and release exclude each other, and an auto-repeat (value 2) is neither |
| Input.Decode | src/input.rs:262-268 | reads type, code and value of a 24-byte record; its partners are the next three rows |
| Input.Encode | src/input.rs:262-268 | an event is laid out in 24 bytes, after the 16 bytes of time fields |
| Input.DecodeEncode | src/input.rs:262-268 | decoding an encoded record gives back its type, code and value, including negative values |
| Input.EncodeDecode | src/input.rs:262-268 | every 24-byte record is the encoding of what it decodes to |
| Input.EventHandlers | src/input.rs:176-183 | the handlers of a handler line are its space-separated pieces that start with `event`, in order, each as many times as it occurs |
| Input.ScanLine | src/input.rs:172-184 | one iteration of the line loop of `Keyboard::new`; described by `Input.ScanLineDescribes` |
| Input.ScanLines | src/input.rs:168-187 | the line loop of `Keyboard::new`; described by `Input.ScanLinesSpec` |
| Input.KeyboardNew | src/input.rs:168-187 | `Keyboard::new` on one block; described by `Input.KeyboardNewSpec` |
| Input.ScanLineDescribes | src/input.rs:172-184 | one more line keeps the name and handlers those of the last name line and the last handler line, and panics exactly on a bare name prefix |
| Input.ScanLinesSpec | src/input.rs:168-187 | `Keyboard::new` panics exactly when a line is the bare name prefix. Otherwise the name is the last name line without its prefix and final character, and the handlers come from the last handler line (none without one) |
| Input.KeyboardNewSpec | src/input.rs:168-187 | on a block cut at line feeds, `Keyboard::new` panics exactly when a line is the bare name prefix, and otherwise gives the name of the last name line and the handlers of the last handler line |
| Input.KeyboardBlocks | src/input.rs:202-206 | the kept blocks are, in order, the `"\n\n"`-separated blocks that contain `120013`, each as many times as it occurs |
| Input.DeviceBlocksCoverList | src/input.rs:203 | the blocks joined with `"\n\n"` give back the whole device list, no block holds `"\n\n"`, and every cut is at the leftmost blank line: a block followed by one line feed still holds none |
| Input.ShiftStep | src/input.rs:224-255 | a failed or short read panics; otherwise the counter rises by one on a shift press, falls by one on a shift release, and is otherwise unchanged |
| Input.ListenShift | src/input.rs:220-257 | the loop of the older `listen` over a finite stream of reads; described by `Input.ListenShiftCounts` |
| Input.ListenShiftCounts | src/input.rs:220-257 | the loop panics exactly when some read is not a whole record; otherwise the counter is the start plus shift presses minus shift releases |
| Ints.U16RoundTrip | src/input.rs:265-266 | reading back the two little-endian bytes of a `u16` gives the value |
| Ints.U32RoundTrip | src/input.rs:267 | reading back the four little-endian bytes of a 32-bit pattern gives the pattern |
| Ints.I32RoundTrip | src/input.rs:267 | the two's-complement bit pattern of an `i32` reads back as the value |
| Config.ExecNew | src/config.rs:10-21 | `Exec::new` always succeeds and sets the first-launch flag with no arguments attached. The program and arguments joined with single spaces give back the command line, and no piece holds a space |
| Config.Run | src/config.rs:22-29 | a run clears the first-launch flag; the first run attaches the configured arguments, and later runs spawn the command unchanged |
| Config.LaunchesUseConfiguredArgs | src/config.rs:22-29 | every one of `n` launches of a fresh `Exec` spawns the program with exactly the configured arguments |
| Config.IsKeybinding | src/config.rs:86-88 | `is_keybinding`: a non-empty line that starts with neither a space nor a tab; with `Config.IsCmd` it splits the non-empty lines exactly in two (`Config.LineKinds`) |
| Config.IsCmd | src/config.rs:89-91 | `is_cmd`: a line that starts with a space or a tab, exactly as `Config.LineKinds` states |
| Config.LineKinds | src/config.rs:87-92 | a line is never both a combination line and a command line; the empty line is neither; every other line is one of them |
| Config.Tokens | src/config.rs:96 | a combination line gives one trimmed token per `'+'`-separated piece, in order, and at least one |
| Config.ResolveAll | src/config.rs:98-116 | tokens are resolved one by one, keeping count and order |
| Config.ParseKeybinding | src/config.rs:94-118 | `parse_keybinding` fails exactly when the first token is not `Alt`, `Shift`, `Ctrl` or `Super`; otherwise it has one key per `'+'` token, in order |
| Config.ParseLine | src/config.rs:63-82 | the two loop flags are never both set |
| Config.ParseLines | src/config.rs:55-85 | after any number of lines the two flags are never both set |
| Config.Parse | src/config.rs:55-85 | `Cfg::parse` on the file's content, cut at line feeds; described by `Config.ParseSpec` |
| Config.ParseSpec | src/config.rs:55-118 | every binding of a file comes from a combination line that `parse_keybinding` accepts, followed later by its command line, so every binding starts with a generic modifier |
| Config.ParseLineEmits | src/config.rs:72-81 | a binding is added exactly when a command line meets a pending combination; it pairs that combination with the trimmed command, and the pending combination is cleared |
| Config.ParseLineAccepts | src/config.rs:64-71 | an accepted combination line with nothing pending becomes the pending combination |
| Config.PendingKeepsFirst | src/config.rs:64-72 | while a combination is pending, a further combination line changes nothing |
| Config.RejectedLineIgnored | src/config.rs:64-71 | a combination line that `parse_keybinding` rejects changes nothing |
| Config.StrayCommandIgnored | src/config.rs:72 | a command line with no pending combination changes nothing |
| Config.ParseLineExtends | src/config.rs:63-82 | a line never removes or reorders bindings |
| Config.BindingsInFileOrder | src/config.rs:58-82 | the bindings of a prefix of the file are a prefix of the bindings of the whole file |
| Config.EmittedFromLines | src/config.rs:72-76 | a new binding pairs a combination accepted from an earlier line with the current command line |
| Config.PendingStaysFromLines | src/config.rs:64-71 | the pending combination was always accepted from some line read so far |
| Config.BindingsComeFromLines | src/config.rs:63-82 | every binding comes from an accepted combination line followed later by its command line |
| Config.DuplicatesKept | src/config.rs:74-75 | the same combination and command given twice yield two equal bindings |
| Listener.FirstIndex | src/lib.rs:90-98 | the search finds the first equal key, and finds none exactly when the key is absent |
| Listener.RemoveFirst | src/lib.rs:87-101 | a release removes the first equal key and keeps the rest in order; an absent key changes nothing |
| Listener.RemoveFirstMultiset | src/lib.rs:99-101 | a release takes exactly one copy of the key out of the held multiset, and none when there is none |
| Listener.Step | src/lib.rs:73-123 | a step either looks up exactly the new held keys, or looks nothing up and leaves them unchanged |
| Listener.StepLooksUpIff | src/lib.rs:80-118 | a lookup follows exactly the reads that give a whole record that parses to a key event |
| Listener.StepHeld | src/lib.rs:82-102 | a press appends its key even when already held; a release removes the first equal key; every other read leaves the held keys alone |
| Listener.StepMultiplicity | src/lib.rs:83-101 | per key, the held count rises by one on its press and falls by one on its release, never below zero |
| Listener.RepeatIsLookedUp | src/lib.rs:82-115 | an auto-repeat record leaves the held keys alone but is still looked up |
| Listener.ReleaseIsLookedUp | src/lib.rs:87-115 | a release record is looked up too, with the remaining held keys |
| Listener.Listen | src/lib.rs:69-126 | the loop of `listen` over a finite stream of reads, collecting every lookup; described by the next three rows |
| Listener.ListenLookups | src/lib.rs:72-125 | over a stream there is one lookup per key-event read; the last lookup is of the final held keys, and with no lookup the held keys are unchanged |
| Listener.ListenSkipsNonRecords | src/lib.rs:73-78 | failed and short reads can be removed from the stream without changing the held keys or the lookups |
| Listener.HeldBoundedByPresses | src/lib.rs:83-101 | every copy of a key held at the end was held at the start or comes from a press of it |
| Strings.SplitOn | src/config.rs:57 | `split` gives at least one piece, no piece holds the separator, and every cut is at the leftmost match of what remains |
| Strings.JoinSplit | src/config.rs:11 | joining the pieces of a split with the separator gives back the string |
| Strings.Trim | src/config.rs:73 | `trim` gives a contiguous slice with no whitespace at either end; only whitespace is dropped |
| Strings.IndexOf | src/input.rs:206 | `contains` finds the leftmost occurrence, and finds none exactly when there is none |
| Strings.Filter | src/input.rs:178-181 | the filter keeps the matching elements in order, each with its full multiplicity, and drops every other element |

## Left out

- Input and output are not modelled, because they are not pure logic. This
  covers:
  - reading the configuration file and the device list;
  - opening device files (`Keyboard::handlers`);
  - the blocking `read` loops, which are modelled as finite streams of read
    results;
  - logging and printing.
- Concurrency is not modelled: `run_rkd`, the threads of
  `read_input_devices`, and the `Arc<Mutex<_>>` guard around the binding
  table. A failed lock in `listen` only logs, so the model ignores it.
- Process spawning is not modelled. `Exec::run` returns the `Command` that
  would be spawned, and the spawn's `io::Result` is left out.
- The timestamp fields `_tv_sec` and `_tv_usec` are not modelled. The
  model only fixes their size, 16 bytes.
- The `unsafe` transmute is not modelled. The model assumes a 64-bit
  little-endian host.
- `Key::from(&str)`, `InputEvent::new` and the `get_mut` lookup are
  parameters, because `src/` defines none of them. The lookup's result and
  the command it runs are not modelled.
- Strings.Lower: it lowers the ASCII capitals and KELVIN SIGN (to `k`).
  KELVIN SIGN is the only non-ASCII character whose lower case is ASCII, so
  the model is exact wherever the result is ASCII. Other non-ASCII
  letters keep their case, and a character whose lower case is longer (such
  as U+0130, which lowers to two characters) keeps its length. The guard
  names are all ASCII, so this does not change which tokens are names.
- Keys.Resolve: it lowers the token with `Strings.Lower`. For the ASCII guard
  names of `src/key.rs` the name test is exact. A guard set holding non-ASCII
  names could differ from Rust's `to_lowercase`.
- Keys.FromStrUnnamed: the premise "not a guard name" is decided with
  `Strings.Lower`; it is exact for the ASCII guard names of `src/key.rs`.
- Keys.FromStrFirstCharOnly: the premise "not a guard name" is decided with
  `Strings.Lower`; it is exact for the ASCII guard names of `src/key.rs`.
- Input.ScanLine: the name is sliced by characters. Rust slices the line by
  bytes, so a name line whose last character is multi-byte, such as
  `N: Name="é`, panics at `src/input.rs:175` but gives the name `""` here.
- Input.ScanLines: the same character slicing as `Input.ScanLine`; a block
  with the line `N: Name="é` panics in the source but not in the model.
- Input.KeyboardNew: the same character slicing as `Input.ScanLine`; a block
  with the line `N: Name="é` panics in the source but not in the model.
- Input.ScanLineDescribes: its panic condition (a bare name prefix) is that of
  the character-sliced model; it leaves out the byte-slicing panic on a name
  line ending in a multi-byte character, such as `N: Name="é`.
- Input.ScanLinesSpec: its panic condition (some line is the bare name
  prefix) leaves out the byte-slicing panic on a name line ending in a
  multi-byte character, such as `N: Name="é`.
- Input.KeyboardNewSpec: its panic condition (some line is the bare name
  prefix) leaves out the byte-slicing panic on a name line ending in a
  multi-byte character, such as `N: Name="é`.
- Input.ShiftStep: the counter is an unbounded integer. The source's `i32`
  (`src/input.rs:236` and `src/input.rs:253`) would overflow above 2^31 - 1
  after about two billion unmatched shift presses, and underflow below
  -2^31 after as many unmatched shift releases. Either panics in a debug
  build and wraps in a release build.
- Input.ListenShift: the same unbounded counter as `Input.ShiftStep`; the
  `i32` overflow and underflow are not modelled.
- Input.ListenShiftCounts: the count "start plus presses minus releases" is
  exact only while it fits in an `i32`; the overflow and underflow are not modelled.
- Keys.CharKeyShape: the character table is proved only by its shape and
  by single-character examples. No per-character round trip over all keys
  is proved, because each evaluation of the character match is costly for
  the solver.
- `main.rs` is not modelled, because it only parses arguments and sets up
  the logger.
- `Cfg::new` and `Keybinding::new` are not modelled, because they are
  plain constructors.

## Findings

| source | as written | input that shows it | evidently intended | confidence | as-written member | corrected member |
|---|---|---|---|---|---|---|
| src/input.rs:130-131 | the older key table maps 69 to `F11` and 70 to `F12` | scan code 87 (`KEY_F11` in the kernel's input-event-codes.h) gives `UK`; code 69 (`KEY_NUMLOCK`) gives `F11` | `F11`/`F12` at 87/88, as `src/key.rs:124-125` has them | high; not executed | Input.FunctionKeyCodes | Input.FixedFunctionKeyCodes |
| src/key.rs:176-177 | the guard literal for the volume-down key spans a line break, so it is `"xf86audio\nlowervolume"` | the token `XF86AudioLowerVolume` gives `[Shift, X]`; the token `"xf86audio\nlowervolume"` reaches `unreachable!()` | the literal `"xf86audiolowervolume"`, which the match arm at `src/key.rs:213` expects | high; not executed | Keys.LowerVolumeNameIsNotNamed | Keys.FixedLowerVolumeIsNamed |

`Input.AsKey` follows the table as written. The corrected table
`Input.FromCodeFixed` sits beside it as `Input.AsKeyFixed`.
`Input.FixedTableKeepsModifiers` shows that the correction leaves the
modifier predicates, and so the shift counter, unchanged. `Keys.FromStrFixed`
is the corrected `from_str`, and `Keys.FromStrAgreesWithFixed` shows it
changes nothing but the volume-down name.

=== FILE: config.dfy ===
/** The configuration grammar of `src/config.rs`: command lines, line
    classification, combination lines and the line loop of `Cfg::parse`. */
module Config {
  import opened Wrappers
  import opened Strings
  import Keys

  // ---------------------------------------------------------------------
  // Commands

  /** The state of a `std::process::Command`: its program and the arguments
      attached to it so far. */
  datatype Command = Command(program: string, args: seq<string>)

  /** `Exec`: the command, the arguments read from the configuration, and
      whether it has not been launched yet. */
  datatype Exec = Exec(cmd: Command, args: seq<string>, firstLaunch: bool)

  /** `Exec::new`: the program is the text before the first space, the
      arguments the remaining space-separated pieces (empty ones kept). */
  function ExecNew(cmdline: string): (r: Option<Exec>)
    ensures r.Some?
    ensures r.value.firstLaunch && r.value.cmd.args == []
    ensures Join([r.value.cmd.program] + r.value.args, " ") == cmdline
    ensures ' ' !in r.value.cmd.program && forall a :: a in r.value.args ==> ' ' !in a
  {
    var pieces := SplitOn(cmdline, " ");
    JoinSplit(cmdline, " ");
    SplitPiecesAvoidChar(cmdline, ' ');
    assert pieces == [pieces[0]] + pieces[1..];
    Some(Exec(Command(pieces[0], []), pieces[1..], true))
  }

  /** `Exec::run` with the spawn abstracted: returns the updated `Exec` and
      the command that is spawned. `Command::args` appends to the command,
      so the arguments are attached once, on the first launch, and stay
      attached for every later `spawn`. */
  function Run(e: Exec): (r: (Exec, Command))
    ensures !r.0.firstLaunch
    ensures r.0.args == e.args && r.0.cmd.program == e.cmd.program
    ensures r.1 == r.0.cmd
    ensures e.firstLaunch ==> r.1.args == e.cmd.args + e.args
    ensures !e.firstLaunch ==> r.1 == e.cmd && r.0 == e
  {
    if e.firstLaunch then
      var cmd := Command(e.cmd.program, e.cmd.args + e.args);
      (Exec(cmd, e.args, false), cmd)
    else
      (e, e.cmd)
  }

  /** The commands spawned by `n` successive launches. */
  function Launches(e: Exec, n: nat): seq<Command>
    decreases n
  {
    if n == 0 then [] else var (e', cmd) := Run(e); [cmd] + Launches(e', n - 1)
  }

  /** Attached arguments are none before the first launch and the
      configured ones afterwards. */
  predicate Consistent(e: Exec) {
    e.cmd.args == (if e.firstLaunch then [] else e.args)
  }

  /** Every launch of a freshly built `Exec` runs the program with exactly
      the configured arguments: the first-launch flag keeps them from being
      attached twice. */
  lemma {:induction false} LaunchesUseConfiguredArgs(e: Exec, n: nat)
    requires Consistent(e)
    ensures |Launches(e, n)| == n
    ensures forall i :: 0 <= i < n ==> Launches(e, n)[i] == Command(e.cmd.program, e.args)
    decreases n
  {
    if n > 0 {
      var (e', cmd) := Run(e);
      LaunchesUseConfiguredArgs(e', n - 1);
      assert Launches(e, n) == [cmd] + Launches(e', n - 1);
    }
  }

  // ---------------------------------------------------------------------
  // Lines

  predicate IsIndented(line: string) {
    StartsWith(line, " ") || StartsWith(line, "\t")
  }

  /** `Cfg::is_keybinding`: a non-empty line that is not indented. */
  predicate IsKeybinding(line: string) {
    !IsIndented(line) && line != ""
  }

  /** `Cfg::is_cmd`: an indented line. */
  predicate IsCmd(line: string) {
    IsIndented(line)
  }

  /** Every line is exactly one of: a combination line, a command line, or
      empty. */
  lemma LineKinds(line: string)
    ensures !(IsKeybinding(line) && IsCmd(line))
    ensures !IsKeybinding("") && !IsCmd("")
    ensures IsKeybinding(line) || IsCmd(line) || line == ""
    ensures IsCmd(line) <==> |line| > 0 && (line[0] == ' ' || line[0] == '\t')
  {
    if |line| > 0 && (line[0] == ' ' || line[0] == '\t') {
      assert line[..1] == [line[0]];
    }
  }

  /** The trimmed `'+'`-separated tokens of a combination line. */
  function Tokens(line: string): (r: seq<string>)
    ensures |r| == |SplitOn(line, "+")| && |r| >= 1
    ensures forall i :: 0 <= i < |r| ==> r[i] == Trim(SplitOn(line, "+")[i])
  {
    var pieces := SplitOn(line, "+");
    seq(|pieces|, i requires 0 <= i < |pieces| => Trim(pieces[i]))
  }

  /** Resolves tokens one by one, in order. */
  function ResolveAll(tokens: seq<string>, keyOf: string -> Keys.Key): (r: seq<Keys.Key>)
    ensures |r| == |tokens|
    ensures forall i :: 0 <= i < |tokens| ==> r[i] == keyOf(tokens[i])
    decreases |tokens|
  {
    if |tokens| == 0 then [] else [keyOf(tokens[0])] + ResolveAll(tokens[1..], keyOf)
  }

  /** `Cfg::parse_keybinding`, with `Key::from(&str)` (not part of this
      model) as the parameter `keyOf`: the first token must resolve to a
      generic modifier; the others are taken as they resolve. */
  function ParseKeybinding(line: string, keyOf: string -> Keys.Key): (r: Option<seq<Keys.Key>>)
    ensures r.None? <==> !Keys.IsGenericModifier(keyOf(Tokens(line)[0]))
    ensures r.Some? ==> |r.value| == |Tokens(line)|
    ensures r.Some? ==> forall i :: 0 <= i < |r.value| ==> r.value[i] == keyOf(Tokens(line)[i])
  {
    var tokens := Tokens(line);
    var first := keyOf(tokens[0]);
    if first == Keys.Alt || first == Keys.Shift || first == Keys.Ctrl || first == Keys.Super then
      Some(ResolveAll(tokens, keyOf))
    else None
  }

  // ---------------------------------------------------------------------
  // The line loop of `Cfg::parse`

  datatype Keybinding = Keybinding(keys: seq<Keys.Key>, exec: Exec)

  /** The variables of the loop: the bindings so far, the pending
      combination and the two flags. */
  datatype ParseState = ParseState(
    bindings: seq<Keybinding>,
    currentKb: seq<Keys.Key>,
    wasKeybinding: bool,
    wasCmd: bool)

  const Start := ParseState([], [], false, false)

  /** Reads a combination line; the loop is stated for any such reader and
      used with `ParseKeybinding`. */
  type Reader = string -> Option<seq<Keys.Key>>

  function ReaderOf(keyOf: string -> Keys.Key): Reader {
    line => ParseKeybinding(line, keyOf)
  }

  /** The two flags are never both set. */
  predicate FlagsExclusive(s: ParseState) {
    !(s.wasKeybinding && s.wasCmd)
  }

  /** The binding a command line completes. */
  function BindingFor(s: ParseState, line: string): Keybinding {
    Keybinding(s.currentKb, ExecNew(Trim(line)).value)
  }

  /** One iteration of the loop. An accepted combination line becomes
      pending unless one already is; the command line after it adds a
      binding and clears the pending combination. */
  function ParseLine(s: ParseState, line: string, read: Reader): (r: ParseState)
    ensures FlagsExclusive(s) ==> FlagsExclusive(r)
  {
    if IsKeybinding(line) && !s.wasKeybinding then
      match read(line)
      case Some(kb) => s.(currentKb := kb, wasKeybinding := true, wasCmd := false)
      case None => s
    else if IsCmd(line) && !s.wasCmd && s.wasKeybinding then
      var cmd := Trim(line);
      var bindings := match ExecNew(cmd)
                      case Some(exec) => s.bindings + [Keybinding(s.currentKb, exec)]
                      case None => s.bindings;
      ParseState(bindings, [], false, true)
    else s
  }

  /** The loop over the lines of the file, first to last. */
  function ParseLines(lines: seq<string>, read: Reader): (r: ParseState)
    ensures FlagsExclusive(r)
    decreases |lines|
  {
    if |lines| == 0 then Start
    else ParseLine(ParseLines(lines[..|lines| - 1], read), lines[|lines| - 1], read)
  }

  /** `Cfg::parse` after the file has been read: the text is cut at `'\n'`
      and each combination line read with `ParseKeybinding`. */
  function Parse(content: string, keyOf: string -> Keys.Key): seq<Keybinding> {
    ParseLines(SplitOn(content, "\n"), ReaderOf(keyOf)).bindings
  }

  /** A binding is added exactly when a command line meets a pending
      combination; it carries that combination and the trimmed command. */
  lemma ParseLineEmits(s: ParseState, line: string, read: Reader)
    requires FlagsExclusive(s)
    ensures var r := ParseLine(s, line, read);
            if IsCmd(line) && s.wasKeybinding then
              r.bindings == s.bindings + [BindingFor(s, line)]
              && !r.wasKeybinding && r.currentKb == []
            else r.bindings == s.bindings
  {
    LineKinds(line);
  }

  /** An accepted combination line with nothing pending becomes pending. */
  lemma ParseLineAccepts(s: ParseState, line: string, read: Reader)
    requires IsKeybinding(line) && !s.wasKeybinding && read(line).Some?
    ensures ParseLine(s, line, read) == s.(currentKb := read(line).value, wasKeybinding := true, wasCmd := false)
  {
  }

  /** While a combination is pending, a further combination line is
      ignored: the first pending combination wins. */
  lemma PendingKeepsFirst(s: ParseState, line: string, read: Reader)
    requires s.wasKeybinding && !IsCmd(line)
    ensures ParseLine(s, line, read) == s
  {
  }

  /** A combination line that `ParseKeybinding` rejects changes nothing. */
  lemma RejectedLineIgnored(s: ParseState, line: string, keyOf: string -> Keys.Key)
    requires IsKeybinding(line) && ParseKeybinding(line, keyOf).None?
    ensures ParseLine(s, line, ReaderOf(keyOf)) == s
  {
    LineKinds(line);
  }

  /** A command line with no pending combination is ignored, so only the
      first indented line after a combination is used. */
  lemma StrayCommandIgnored(s: ParseState, line: string, read: Reader)
    requires !s.wasKeybinding && IsCmd(line)
    ensures ParseLine(s, line, read) == s
  {
    LineKinds(line);
  }

  /** One iteration never removes or reorders bindings. */
  lemma ParseLineExtends(s: ParseState, line: string, read: Reader)
    ensures s.bindings <= ParseLine(s, line, read).bindings
  {
  }

  /** The loop state after one more line. */
  lemma ParseLinesSnoc(lines: seq<string>, line: string, read: Reader)
    ensures ParseLines(lines + [line], read) == ParseLine(ParseLines(lines, read), line, read)
  {
    assert (lines + [line])[..|lines|] == lines;
  }

  /** Bindings are only ever appended, so they appear in file order: the
      bindings of a prefix of the file are a prefix of the bindings of the
      whole file. */
  lemma {:induction false} BindingsInFileOrder(lines: seq<string>, more: seq<string>, read: Reader)
    ensures ParseLines(lines, read).bindings <= ParseLines(lines + more, read).bindings
    decreases |more|
  {
    if |more| > 0 {
      var init, last := more[..|more| - 1], more[|more| - 1];
      BindingsInFileOrder(lines, init, read);
      assert lines + more == (lines + init) + [last];
      ParseLinesSnoc(lines + init, last, read);
      ParseLineExtends(ParseLines(lines + init, read), last, read);
    } else {
      assert lines + more == lines;
    }
  }

  /** A binding comes from a combination line the reader accepts, followed
      later by the command line it was paired with. */
  predicate FromLines(lines: seq<string>, b: Keybinding, read: Reader) {
    exists i, j :: 0 <= i < j < |lines|
      && IsKeybinding(lines[i]) && read(lines[i]) == Some(b.keys)
      && IsCmd(lines[j]) && BindingFor(ParseState([], b.keys, true, false), lines[j]) == b
  }

  /** The pending combination was accepted from some earlier line. */
  predicate PendingFromLines(lines: seq<string>, s: ParseState, read: Reader) {
    s.wasKeybinding ==>
      exists i :: 0 <= i < |lines| && IsKeybinding(lines[i]) && read(lines[i]) == Some(s.currentKb)
  }

  /** Provenance survives appending lines. */
  lemma FromLinesGrow(lines: seq<string>, line: string, b: Keybinding, read: Reader)
    requires FromLines(lines, b, read)
    ensures FromLines(lines + [line], b, read)
  {
    var i, j :| 0 <= i < j < |lines|
      && IsKeybinding(lines[i]) && read(lines[i]) == Some(b.keys)
      && IsCmd(lines[j]) && BindingFor(ParseState([], b.keys, true, false), lines[j]) == b;
    var all := lines + [line];
    assert all[i] == lines[i] && all[j] == lines[j];
  }

  /** A new binding pairs the pending combination with the current line. */
  lemma EmittedFromLines(init: seq<string>, s: ParseState, line: string, read: Reader)
    requires PendingFromLines(init, s, read) && FlagsExclusive(s)
    ensures forall b :: (b in ParseLine(s, line, read).bindings && b !in s.bindings)
                          ==> FromLines(init + [line], b, read)
  {
    var lines := init + [line];
    var r := ParseLine(s, line, read);
    ParseLineEmits(s, line, read);
    forall b | b in r.bindings && b !in s.bindings
      ensures FromLines(lines, b, read)
    {
      assert IsCmd(line) && s.wasKeybinding;
      assert b == BindingFor(s, line);
      var i :| 0 <= i < |init| && IsKeybinding(init[i]) && read(init[i]) == Some(s.currentKb);
      assert lines[i] == init[i];
      assert lines[|init|] == line;
      assert BindingFor(ParseState([], b.keys, true, false), line) == b;
    }
  }

  /** The pending combination after a line was accepted from some line so
      far. */
  lemma PendingStaysFromLines(init: seq<string>, s: ParseState, line: string, read: Reader)
    requires PendingFromLines(init, s, read)
    ensures PendingFromLines(init + [line], ParseLine(s, line, read), read)
  {
    var lines := init + [line];
    var r := ParseLine(s, line, read);
    LineKinds(line);
    if r.wasKeybinding {
      if s.wasKeybinding {
        var i :| 0 <= i < |init| && IsKeybinding(init[i]) && read(init[i]) == Some(s.currentKb);
        assert lines[i] == init[i];
        assert r.currentKb == s.currentKb;
      } else {
        assert IsKeybinding(line) && read(line) == Some(r.currentKb);
        assert lines[|init|] == line;
      }
    }
  }

  /** Every binding the loop produces comes from an accepted combination
      line and a later command line, and so does the pending combination. */
  lemma {:induction false} BindingsComeFromLines(lines: seq<string>, read: Reader)
    ensures forall b :: b in ParseLines(lines, read).bindings ==> FromLines(lines, b, read)
    ensures PendingFromLines(lines, ParseLines(lines, read), read)
    decreases |lines|
  {
    if |lines| > 0 {
      var init, line := lines[..|lines| - 1], lines[|lines| - 1];
      var s := ParseLines(init, read);
      BindingsComeFromLines(init, read);
      assert lines == init + [line];
      ParseLinesSnoc(init, line, read);
      EmittedFromLines(init, s, line, read);
      PendingStaysFromLines(init, s, line, read);
      forall b | b in s.bindings
        ensures FromLines(lines, b, read)
      {
        FromLinesGrow(init, line, b, read);
      }
    }
  }

  /** `Cfg::parse` on a whole file: every binding comes from a combination
      line that `parse_keybinding` accepts, followed later by its command
      line, so every binding starts with a generic modifier. */
  lemma ParseSpec(content: string, keyOf: string -> Keys.Key)
    ensures forall b :: b in Parse(content, keyOf) ==> FromLines(SplitOn(content, "\n"), b, ReaderOf(keyOf))
    ensures forall b :: b in Parse(content, keyOf) ==> |b.keys| >= 1 && Keys.IsGenericModifier(b.keys[0])
  {
    var lines, read := SplitOn(content, "\n"), ReaderOf(keyOf);
    BindingsComeFromLines(lines, read);
    forall b | b in Parse(content, keyOf)
      ensures |b.keys| >= 1 && Keys.IsGenericModifier(b.keys[0])
    {
      var i, j :| 0 <= i < j < |lines|
        && IsKeybinding(lines[i]) && read(lines[i]) == Some(b.keys)
        && IsCmd(lines[j]) && BindingFor(ParseState([], b.keys, true, false), lines[j]) == b;
      assert ParseKeybinding(lines[i], keyOf) == Some(b.keys);
    }
  }

  /** Duplicate combinations are not rejected: the same combination and
      command given twice yield two equal bindings. */
  lemma DuplicatesKept(combo: string, cmd: string, read: Reader)
    requires IsKeybinding(combo) && read(combo).Some?
    requires IsCmd(cmd)
    ensures var bs := ParseLines([combo, cmd, combo, cmd], read).bindings;
            |bs| == 2 && bs[0] == bs[1]
  {
    LineKinds(combo);
    LineKinds(cmd);
    var kb := read(combo).value;
    ParseLinesSnoc([], combo, read);
    ParseLinesSnoc([combo], cmd, read);
    ParseLinesSnoc([combo, cmd], combo, read);
    ParseLinesSnoc([combo, cmd, combo], cmd, read);
    var s0 := ParseLines([], read);
    var s1 := ParseLines([combo], read);
    ParseLineAccepts(s0, combo, read);
    assert s1 == ParseState([], kb, true, false);
    var s2 := ParseLines([combo, cmd], read);
    assert [combo] + [cmd] == [combo, cmd];
    assert s2 == ParseLine(s1, cmd, read);
    ParseLineEmits(s1, cmd, read);
    assert s2.bindings == [BindingFor(s1, cmd)] && !s2.wasKeybinding;
    var s3 := ParseLines([combo, cmd, combo], read);
    assert [combo, cmd] + [combo] == [combo, cmd, combo];
    assert s3 == ParseLine(s2, combo, read);
    ParseLineAccepts(s2, combo, read);
    assert s3.bindings == s2.bindings && s3.currentKb == kb && s3.wasKeybinding;
    var s4 := ParseLines([combo, cmd, combo, cmd], read);
    assert [combo, cmd, combo] + [cmd] == [combo, cmd, combo, cmd];
    assert s4 == ParseLine(s3, cmd, read);
    ParseLineEmits(s3, cmd, read);
    assert s4.bindings == [BindingFor(s1, cmd), BindingFor(s3, cmd)];
  }
}

=== FILE: input.dfy ===
/** The older input module `src/input.rs`: its own side-keeping key table,
    the `struct input_event` record and its predicates, the parsing of
    `/proc/bus/input/devices` text, and the shift counter of its listener. */
module Input {
  import opened Wrappers
  import opened Ints
  import opened Strings

  datatype Key =
    | Num0 | Num1 | Num2 | Num3 | Num4 | Num5 | Num6 | Num7 | Num8 | Num9
    | Dash | Tick | Eq | Dot | Comma | Slash | SemiColon | Apostrophe | BackSlash
    | LSquareBracket | RSquareBracket
    | RAlt | LAlt
    | RCtrl | LCtrl
    | RShift | LShift
    | Super | Esc | Backspace | Return | Space | Tab
    | A | B | C | D | E | F | G | H | I | J | K | L | M
    | N | O | P | Q | R | S | T | U | V | W | X | Y | Z
    | F1 | F2 | F3 | F4 | F5 | F6 | F7 | F8 | F9 | F10 | F11 | F12
    | Up | Down | Left | Right
    | UK

  /** The scan codes this table lists. */
  predicate IsListedCode(code: u16) {
    (1 <= code <= 54) || code == 56 || code == 57 || (59 <= code <= 70)
    || code == 97 || code == 100 || code == 103 || code == 105 || code == 106
    || code == 108 || code == 125
  }

  /** `Key::from_code` of this module: left and right modifiers stay apart,
      and F11/F12 sit at 69/70. */
  function FromCode(code: u16): Key {
    match code
    case 1 => Esc
    case 2 => Num1
    case 3 => Num2
    case 4 => Num3
    case 5 => Num4
    case 6 => Num5
    case 7 => Num6
    case 8 => Num7
    case 9 => Num8
    case 10 => Num9
    case 11 => Num0
    case 12 => Dash
    case 13 => Eq
    case 14 => Backspace
    case 15 => Tab
    case 16 => Q
    case 17 => W
    case 18 => E
    case 19 => R
    case 20 => T
    case 21 => Y
    case 22 => U
    case 23 => I
    case 24 => O
    case 25 => P
    case 26 => LSquareBracket
    case 27 => RSquareBracket
    case 28 => Return
    case 29 => LCtrl
    case 30 => A
    case 31 => S
    case 32 => D
    case 33 => F
    case 34 => G
    case 35 => H
    case 36 => J
    case 37 => K
    case 38 => L
    case 39 => SemiColon
    case 40 => Apostrophe
    case 41 => Tick
    case 42 => LShift
    case 43 => BackSlash
    case 44 => Z
    case 45 => X
    case 46 => C
    case 47 => V
    case 48 => B
    case 49 => N
    case 50 => M
    case 51 => Comma
    case 52 => Dot
    case 53 => Slash
    case 54 => RShift
    case 56 => LAlt
    case 57 => Space
    case 59 => F1
    case 60 => F2
    case 61 => F3
    case 62 => F4
    case 63 => F5
    case 64 => F6
    case 65 => F7
    case 66 => F8
    case 67 => F9
    case 68 => F10
    case 69 => F11
    case 70 => F12
    case 97 => RCtrl
    case 100 => RAlt
    case 103 => Up
    case 105 => Left
    case 106 => Right
    case 108 => Down
    case 125 => Super
    case _ => UK
  }

  /** Every code off the table gives `UK`, and only those do. */
  lemma FromCodeTotal(code: u16)
    ensures FromCode(code) == UK <==> !IsListedCode(code)
  {
    // Splitting the codes into ranges gives the solver one small part of
    // the match at a time.
    if code <= 54 {
    } else if code <= 100 {
    } else {
    }
  }

  /** Each physical modifier keeps its side. */
  lemma SidedModifierCodes(code: u16)
    ensures FromCode(code) == LCtrl <==> code == 29
    ensures FromCode(code) == RCtrl <==> code == 97
    ensures FromCode(code) == LShift <==> code == 42
    ensures FromCode(code) == RShift <==> code == 54
    ensures FromCode(code) == LAlt <==> code == 56
    ensures FromCode(code) == RAlt <==> code == 100
  {
    // Splitting the codes into ranges gives the solver one small part of
    // the match at a time.
    if code <= 54 {
    } else if code <= 100 {
    } else {
    }
  }

  /** This table reads 69 and 70 as F11 and F12. */
  lemma FunctionKeyCodes(code: u16)
    ensures FromCode(code) == F11 <==> code == 69
    ensures FromCode(code) == F12 <==> code == 70
  {
  }

  /** The table with F11 and F12 at the kernel's codes 87 and 88; 69 and 70
      are the kernel's num lock and scroll lock, which this enum lacks. */
  function FromCodeFixed(code: u16): Key {
    if code == 69 || code == 70 then UK
    else if code == 87 then F11
    else if code == 88 then F12
    else FromCode(code)
  }

  /** The corrected table puts F11 and F12 at 87 and 88 and agrees with the
      written one at every code but 69, 70, 87 and 88. */
  lemma FixedFunctionKeyCodes(code: u16)
    ensures FromCodeFixed(code) == F11 <==> code == 87
    ensures FromCodeFixed(code) == F12 <==> code == 88
    ensures code !in {69, 70, 87, 88} ==> FromCodeFixed(code) == FromCode(code)
  {
    FunctionKeyCodes(code);
  }

  // ---------------------------------------------------------------------
  // The `struct input_event` record

  const KeyEv: u16 := 1
  const KeyRelease: i32 := 0
  const KeyPress: i32 := 1

  /** `InputEvent` without its two time fields. */
  datatype InputEvent = InputEvent(kind: u16, code: u16, value: i32)

  /** `as_enum`: the key of the event's code, by the table as written. */
  function AsKey(e: InputEvent): Key {
    FromCode(e.code)
  }

  /** `is_shift`: the event's key is either shift. */
  predicate IsShift(e: InputEvent)
    ensures IsShift(e) <==> e.code == 42 || e.code == 54
  {
    SidedModifierCodes(e.code);
    AsKey(e) == LShift || AsKey(e) == RShift
  }

  /** `is_ctrl`: the event's key is either control. */
  predicate IsCtrl(e: InputEvent)
    ensures IsCtrl(e) <==> e.code == 29 || e.code == 97
  {
    SidedModifierCodes(e.code);
    AsKey(e) == LCtrl || AsKey(e) == RCtrl
  }

  /** `is_alt`: the event's key is either alt. */
  predicate IsAlt(e: InputEvent)
    ensures IsAlt(e) <==> e.code == 56 || e.code == 100
  {
    SidedModifierCodes(e.code);
    AsKey(e) == LAlt || AsKey(e) == RAlt
  }

  /** `is_super`: the event's key is the super key. */
  predicate IsSuper(e: InputEvent)
    ensures IsSuper(e) <==> e.code == 125
  {
    AsKey(e) == Super
  }

  /** `as_enum` over the corrected table. */
  function AsKeyFixed(e: InputEvent): Key {
    FromCodeFixed(e.code)
  }

  /** The correction leaves the modifiers alone: over the corrected table
      the four modifier predicates hold for exactly the same events, and
      only F11 and F12 move. */
  lemma FixedTableKeepsModifiers(e: InputEvent)
    ensures (AsKeyFixed(e) == LShift || AsKeyFixed(e) == RShift) <==> IsShift(e)
    ensures (AsKeyFixed(e) == LCtrl || AsKeyFixed(e) == RCtrl) <==> IsCtrl(e)
    ensures (AsKeyFixed(e) == LAlt || AsKeyFixed(e) == RAlt) <==> IsAlt(e)
    ensures AsKeyFixed(e) == Super <==> IsSuper(e)
    ensures AsKeyFixed(e) == F11 <==> e.code == 87
    ensures AsKeyFixed(e) == F12 <==> e.code == 88
  {
    FixedFunctionKeyCodes(e.code);
    SidedModifierCodes(e.code);
  }

  predicate IsKeyEvent(e: InputEvent) {
    e.kind == KeyEv
  }

  predicate IsKeyPress(e: InputEvent) {
    e.value == KeyPress
  }

  predicate IsKeyRelease(e: InputEvent) {
    e.value == KeyRelease
  }

  /** Press and release exclude each other, and an auto-repeat (value 2) is
      neither. */
  lemma PressReleaseExclusive(e: InputEvent)
    ensures !(IsKeyPress(e) && IsKeyRelease(e))
    ensures e.value == 2 ==> !IsKeyPress(e) && !IsKeyRelease(e)
  {
  }

  /** On a 64-bit little-endian host the record is two 8-byte time fields,
      then the type, code and value. */
  const TimeFieldsSize := 16
  const KindOffset := 16
  const CodeOffset := 18
  const ValueOffset := 20
  const SizeOfInputEvent := 24

  /** Lays an event out as the kernel writes it, after the given 16 bytes
      of time fields. */
  function Encode(time: seq<byte>, e: InputEvent): (b: seq<byte>)
    requires |time| == TimeFieldsSize
    ensures |b| == SizeOfInputEvent
    ensures b[..KindOffset] == time
  {
    time + U16Bytes(e.kind) + U16Bytes(e.code) + U32Bytes(I32Bits(e.value))
  }

  /** Reads the type, code and value fields of a 24-byte record. */
  function Decode(b: seq<byte>): InputEvent
    requires |b| == SizeOfInputEvent
  {
    InputEvent(
      ReadU16(b[KindOffset..CodeOffset]),
      ReadU16(b[CodeOffset..ValueOffset]),
      BitsToI32(ReadU32(b[ValueOffset..SizeOfInputEvent])))
  }

  /** Decoding an encoded record gives back its type, code and value. */
  lemma DecodeEncode(time: seq<byte>, e: InputEvent)
    requires |time| == TimeFieldsSize
    ensures Decode(Encode(time, e)) == e
  {
    var kind, code, value := U16Bytes(e.kind), U16Bytes(e.code), U32Bytes(I32Bits(e.value));
    var b := Encode(time, e);
    assert b == time + kind + code + value;
    assert b[KindOffset..CodeOffset] == U16Bytes(e.kind);
    assert b[CodeOffset..ValueOffset] == U16Bytes(e.code);
    assert b[ValueOffset..SizeOfInputEvent] == U32Bytes(I32Bits(e.value));
    U16RoundTrip(e.kind);
    U16RoundTrip(e.code);
    U32RoundTrip(I32Bits(e.value));
    I32RoundTrip(e.value);
  }

  /** Every 24-byte record is the encoding of what it decodes to: the layout
      has no spare bits beyond the time fields. */
  lemma EncodeDecode(b: seq<byte>)
    requires |b| == SizeOfInputEvent
    ensures Encode(b[..TimeFieldsSize], Decode(b)) == b
  {
    var e := Decode(b);
    U16BytesRoundTrip(b[KindOffset..CodeOffset]);
    U16BytesRoundTrip(b[CodeOffset..ValueOffset]);
    var bits := ReadU32(b[ValueOffset..SizeOfInputEvent]);
    assert I32Bits(BitsToI32(bits)) == bits;
    U32BytesRoundTrip(b[ValueOffset..SizeOfInputEvent]);
    assert b == b[..TimeFieldsSize] + b[KindOffset..CodeOffset] + b[CodeOffset..ValueOffset]
                + b[ValueOffset..SizeOfInputEvent];
  }

  // ---------------------------------------------------------------------
  // `/proc/bus/input/devices`

  const NamePrefix: string := "N: Name=\""
  const HandlerPrefix: string := "H: Handlers="
  const KeyboardInputId: string := "120013"

  datatype Keyboard = Keyboard(handlers: seq<string>, name: string)

  /** The `event*` entries of a handler line, in order. */
  function EventHandlers(line: string): (r: seq<string>)
    requires StartsWith(line, HandlerPrefix)
    ensures forall h :: h in r ==> StartsWith(h, "event")
    ensures forall h :: h in r <==> h in SplitOn(line[|HandlerPrefix|..], " ") && StartsWith(h, "event")
    ensures IsSubsequence(r, SplitOn(line[|HandlerPrefix|..], " "))
    ensures forall h :: multiset(r)[h]
                        == if StartsWith(h, "event") then multiset(SplitOn(line[|HandlerPrefix|..], " "))[h] else 0
  {
    Filter(SplitOn(line[|HandlerPrefix|..], " "), h => StartsWith(h, "event"))
  }

  /** One iteration of the line loop of `Keyboard::new`. A name line drops
      the prefix and the last character; slicing panics when nothing
      follows the prefix. */
  function ScanLine(kb: Keyboard, line: string): Checked<Keyboard> {
    if StartsWith(line, NamePrefix) then
      if |line| - 1 < |NamePrefix| then Panic
      else Done(kb.(name := line[|NamePrefix|..|line| - 1]))
    else if StartsWith(line, HandlerPrefix) then
      Done(kb.(handlers := EventHandlers(line)))
    else Done(kb)
  }

  /** The line loop of `Keyboard::new`, folded from the first line. */
  function ScanLines(lines: seq<string>): Checked<Keyboard>
    decreases |lines|
  {
    if |lines| == 0 then Done(Keyboard([], ""))
    else
      match ScanLines(lines[..|lines| - 1])
      case Panic => Panic
      case Done(kb) => ScanLine(kb, lines[|lines| - 1])
  }

  /** `Keyboard::new`: parses one device block. */
  function KeyboardNew(block: string): Checked<Keyboard> {
    ScanLines(SplitOn(block, "\n"))
  }

  /** The index of the last line starting with `prefix`. */
  function LastWithPrefix(lines: seq<string>, prefix: string): (r: Option<nat>)
    ensures r.Some? ==> r.value < |lines| && StartsWith(lines[r.value], prefix)
    ensures r.Some? ==> forall j :: r.value < j < |lines| ==> !StartsWith(lines[j], prefix)
    ensures r.None? ==> forall j :: 0 <= j < |lines| ==> !StartsWith(lines[j], prefix)
    decreases |lines|
  {
    if |lines| == 0 then None
    else if StartsWith(lines[|lines| - 1], prefix) then Some(|lines| - 1)
    else LastWithPrefix(lines[..|lines| - 1], prefix)
  }

  /** The name a block's lines give: the text of the last name line between
      the prefix and the final character, or empty without a name line. */
  predicate NameFrom(lines: seq<string>, name: string) {
    match LastWithPrefix(lines, NamePrefix)
    case None => name == ""
    case Some(i) =>
      |lines[i]| > |NamePrefix| && name == lines[i][|NamePrefix|..|lines[i]| - 1]
  }

  /** The handlers a block's lines give: those of the last handler line, or
      none without one. */
  predicate HandlersFrom(lines: seq<string>, handlers: seq<string>) {
    match LastWithPrefix(lines, HandlerPrefix)
    case None => handlers == []
    case Some(i) => handlers == EventHandlers(lines[i])
  }

  /** What a block's lines describe, read off their last name and handler
      lines. */
  predicate Describes(lines: seq<string>, kb: Keyboard) {
    NameFrom(lines, kb.name) && HandlersFrom(lines, kb.handlers)
  }

  /** The last line with a prefix, after one more line. */
  lemma LastWithPrefixSnoc(init: seq<string>, last: string, prefix: string)
    ensures LastWithPrefix(init + [last], prefix)
            == if StartsWith(last, prefix) then Some(|init|) else LastWithPrefix(init, prefix)
  {
    assert (init + [last])[..|init|] == init;
  }

  /** One more line keeps the description up to date, unless it is the
      bare name prefix. */
  lemma ScanLineDescribes(init: seq<string>, kb: Keyboard, last: string)
    requires Describes(init, kb)
    ensures ScanLine(kb, last).Panic? <==> last == NamePrefix
    ensures ScanLine(kb, last).Done? ==> Describes(init + [last], ScanLine(kb, last).value)
  {
    if last == NamePrefix {
      assert StartsWith(last, NamePrefix);
    } else if StartsWith(last, NamePrefix) {
      var name := NameLineName(init, last);
      HandlersKept(init, last, kb.handlers);
      assert ScanLine(kb, last) == Done(kb.(name := name));
    } else {
      NameKept(init, last, kb.name);
      if StartsWith(last, HandlerPrefix) {
        LastWithPrefixSnoc(init, last, HandlerPrefix);
        assert HandlersFrom(init + [last], EventHandlers(last));
      } else {
        HandlersKept(init, last, kb.handlers);
      }
    }
  }

  /** A name line with text after the prefix is not a handler line, and it
      gives the name between the prefix and its last character. */
  lemma NameLineName(init: seq<string>, last: string) returns (name: string)
    requires StartsWith(last, NamePrefix) && last != NamePrefix
    ensures |last| > |NamePrefix| && name == last[|NamePrefix|..|last| - 1]
    ensures !StartsWith(last, HandlerPrefix)
    ensures NameFrom(init + [last], name)
  {
    assert |last| > |NamePrefix|;
    assert !StartsWith(last, HandlerPrefix) by {
      assert last[0] == last[..|NamePrefix|][0] == 'N';
    }
    name := last[|NamePrefix|..|last| - 1];
    LastWithPrefixSnoc(init, last, NamePrefix);
    assert (init + [last])[|init|] == last;
  }

  /** A line that is not a name line leaves the name alone. */
  lemma NameKept(init: seq<string>, last: string, name: string)
    requires NameFrom(init, name) && !StartsWith(last, NamePrefix)
    ensures NameFrom(init + [last], name)
  {
    LastWithPrefixSnoc(init, last, NamePrefix);
  }

  /** A line that is not a handler line leaves the handlers alone. */
  lemma HandlersKept(init: seq<string>, last: string, handlers: seq<string>)
    requires HandlersFrom(init, handlers) && !StartsWith(last, HandlerPrefix)
    ensures HandlersFrom(init + [last], handlers)
  {
    LastWithPrefixSnoc(init, last, HandlerPrefix);
  }

  /** `Keyboard::new` panics exactly when some line is the bare name prefix;
      otherwise the name comes from the last name line and the handlers from
      the last handler line (none if there is no such line). */
  lemma {:induction false} ScanLinesSpec(lines: seq<string>)
    ensures ScanLines(lines).Panic? <==> NamePrefix in lines
    ensures ScanLines(lines).Done? ==> Describes(lines, ScanLines(lines).value)
    decreases |lines|
  {
    if |lines| > 0 {
      var init, last := lines[..|lines| - 1], lines[|lines| - 1];
      ScanLinesSpec(init);
      assert lines == init + [last];
      assert NamePrefix in lines <==> NamePrefix in init || last == NamePrefix;
      if ScanLines(init).Done? {
        ScanLineDescribes(init, ScanLines(init).value, last);
        assert ScanLines(lines) == ScanLine(ScanLines(init).value, last);
      } else {
        assert ScanLines(lines) == Panic;
      }
    }
  }

  /** `Keyboard::new` on one block: it panics exactly when a line of the
      block is the bare name prefix, and otherwise describes the block by
      its last name line and its last handler line. */
  lemma KeyboardNewSpec(block: string)
    ensures KeyboardNew(block).Panic? <==> NamePrefix in SplitOn(block, "\n")
    ensures KeyboardNew(block).Done? ==> Describes(SplitOn(block, "\n"), KeyboardNew(block).value)
  {
    ScanLinesSpec(SplitOn(block, "\n"));
  }

  /** The block filter of `read_input_devices`: the `"\n\n"`-separated
      blocks that mention the keyboard capability mask `120013`, in order. */
  function KeyboardBlocks(deviceList: string): (r: seq<string>)
    ensures forall b :: b in r <==> b in SplitOn(deviceList, "\n\n") && Contains(b, KeyboardInputId)
    ensures IsSubsequence(r, SplitOn(deviceList, "\n\n"))
    ensures forall b :: multiset(r)[b]
                        == if Contains(b, KeyboardInputId) then multiset(SplitOn(deviceList, "\n\n"))[b] else 0
  {
    Filter(SplitOn(deviceList, "\n\n"), b => Contains(b, KeyboardInputId))
  }

  /** The blocks the filter chooses from are the whole device list, cut at
      every blank line, each cut at the leftmost `"\n\n"` of what remains:
      a block followed by one more line feed still holds no blank line. */
  lemma DeviceBlocksCoverList(deviceList: string)
    ensures Join(SplitOn(deviceList, "\n\n"), "\n\n") == deviceList
    ensures forall b :: b in SplitOn(deviceList, "\n\n") ==> !Contains(b, "\n\n")
    ensures var bs := SplitOn(deviceList, "\n\n");
            forall k :: 0 <= k < |bs| - 1 ==> !Contains(bs[k] + "\n", "\n\n")
  {
    JoinSplit(deviceList, "\n\n");
    assert "\n\n"[..1] == "\n";
  }

  // ---------------------------------------------------------------------
  // The listener of this module

  /** One `read` of the device file: an I/O error, or the bytes it filled
      (their count is the returned byte count). */
  datatype Read = ReadFailed | ReadBytes(bytes: seq<byte>)

  /** A read that yields one whole record. */
  predicate IsRecord(r: Read) {
    r.ReadBytes? && |r.bytes| == SizeOfInputEvent
  }

  predicate IsShiftPress(r: Read) {
    IsRecord(r) && (var e := Decode(r.bytes); IsKeyEvent(e) && IsKeyPress(e) && IsShift(e))
  }

  predicate IsShiftRelease(r: Read) {
    IsRecord(r) && (var e := Decode(r.bytes); IsKeyEvent(e) && IsKeyRelease(e) && IsShift(e))
  }

  /** One iteration of `listen` in this module: a read error or a short
      read panics; a shift press counts up, a shift release counts down. */
  function ShiftStep(shiftPressed: int, read: Read): (r: Checked<int>)
    ensures r.Panic? <==> !IsRecord(read)
    ensures r.Done? ==> r.value == shiftPressed + (if IsShiftPress(read) then 1 else 0)
                                                 - (if IsShiftRelease(read) then 1 else 0)
  {
    match read
    case ReadFailed => Panic
    case ReadBytes(bytes) =>
      if |bytes| != SizeOfInputEvent then Panic
      else
        var event := Decode(bytes);
        if IsKeyEvent(event) then
          if IsKeyPress(event) then
            Done(if IsShift(event) then shiftPressed + 1 else shiftPressed)
          else if IsKeyRelease(event) then
            Done(if IsShift(event) then shiftPressed - 1 else shiftPressed)
          else Done(shiftPressed)
        else Done(shiftPressed)
  }

  /** The loop of `listen` over a sequence of reads. */
  function ListenShift(shiftPressed: int, stream: seq<Read>): Checked<int>
    decreases |stream|
  {
    if |stream| == 0 then Done(shiftPressed)
    else
      match ShiftStep(shiftPressed, stream[0])
      case Panic => Panic
      case Done(n) => ListenShift(n, stream[1..])
  }

  /** The loop survives exactly the stream that all deliver whole records,
      and then the counter is the number of shift presses minus the number
      of shift releases; it is not kept from going negative. */
  lemma {:induction false} ListenShiftCounts(shiftPressed: int, stream: seq<Read>)
    ensures ListenShift(shiftPressed, stream).Panic? <==> exists i :: 0 <= i < |stream| && !IsRecord(stream[i])
    ensures ListenShift(shiftPressed, stream).Done? ==>
              ListenShift(shiftPressed, stream).value
              == shiftPressed + |Filter(stream, IsShiftPress)| - |Filter(stream, IsShiftRelease)|
    decreases |stream|
  {
    if |stream| > 0 {
      var step := ShiftStep(shiftPressed, stream[0]);
      if step.Done? {
        ListenShiftCounts(step.value, stream[1..]);
        assert forall i :: 1 <= i < |stream| ==> stream[i] == stream[1..][i - 1];
        assert (exists i :: 0 <= i < |stream| && !IsRecord(stream[i]))
               <==> (exists i :: 0 <= i < |stream[1..]| && !IsRecord(stream[1..][i]));
      } else {
        assert !IsRecord(stream[0]);
      }
    }
  }
}

=== FILE: ints.dfy ===
/** Fixed-width machine integers and their little-endian byte encodings, as
    used by the kernel's `struct input_event` record. */
module Ints {

  type byte = x: int | 0 <= x < 0x100
  type u16 = x: int | 0 <= x < 0x1_0000
  type u32 = x: int | 0 <= x < 0x1_0000_0000
  type i32 = x: int | -0x8000_0000 <= x < 0x8000_0000

  /** The two bytes of a 16-bit value, least significant first. */
  function U16Bytes(v: u16): (b: seq<byte>)
    ensures |b| == 2
  {
    [(v % 0x100) as byte, (v / 0x100) as byte]
  }

  /** Reads a little-endian 16-bit value. */
  function ReadU16(b: seq<byte>): u16
    requires |b| == 2
  {
    b[0] as int + 0x100 * b[1] as int
  }

  /** The four bytes of a 32-bit value, least significant first. */
  function U32Bytes(v: u32): (b: seq<byte>)
    ensures |b| == 4
  {
    U16Bytes(v % 0x1_0000) + U16Bytes(v / 0x1_0000)
  }

  /** Reads a little-endian 32-bit value. */
  function ReadU32(b: seq<byte>): u32
    requires |b| == 4
  {
    ReadU16(b[..2]) as int + 0x1_0000 * ReadU16(b[2..]) as int
  }

  /** The two's-complement bit pattern of a signed 32-bit value. */
  function I32Bits(v: i32): u32 {
    if v < 0 then v + 0x1_0000_0000 else v
  }

  /** Reinterprets a 32-bit pattern as a signed value (two's complement). */
  function BitsToI32(u: u32): i32 {
    if u >= 0x8000_0000 then u - 0x1_0000_0000 else u
  }

  lemma U16RoundTrip(v: u16)
    ensures ReadU16(U16Bytes(v)) == v
  {
  }

  lemma U16BytesRoundTrip(b: seq<byte>)
    requires |b| == 2
    ensures U16Bytes(ReadU16(b)) == b
  {
  }

  lemma U32RoundTrip(v: u32)
    ensures ReadU32(U32Bytes(v)) == v
  {
    var b := U32Bytes(v);
    assert b[..2] == U16Bytes(v % 0x1_0000);
    assert b[2..] == U16Bytes(v / 0x1_0000);
    U16RoundTrip(v % 0x1_0000);
    U16RoundTrip(v / 0x1_0000);
  }

  lemma U32BytesRoundTrip(b: seq<byte>)
    requires |b| == 4
    ensures U32Bytes(ReadU32(b)) == b
  {
    var lo, hi := ReadU16(b[..2]), ReadU16(b[2..]);
    var v := ReadU32(b);
    assert v % 0x1_0000 == lo && v / 0x1_0000 == hi;
    U16BytesRoundTrip(b[..2]);
    U16BytesRoundTrip(b[2..]);
    assert b == b[..2] + b[2..];
  }

  lemma I32RoundTrip(v: i32)
    ensures BitsToI32(I32Bits(v)) == v
  {
  }
}

=== FILE: keys.dfy ===
/** The key model of `src/key.rs`: the key enumeration, the scan-code table
    (left and right modifiers folded into generic ones) and the
    configuration-token table. */
module Keys {
  import opened Wrappers
  import opened Ints
  import opened Strings

  datatype Key =
    // Keys that have a shifted form
    | Num0 | Num1 | Num2 | Num3 | Num4 | Num5 | Num6 | Num7 | Num8 | Num9
    | Dash | Tick | Equal | Dot | Comma | Slash | SemiColon | Apostrophe | BackSlash
    | LSquareBracket | RSquareBracket
    | A | B | C | D | E | F | G | H | I | J | K | L | M
    | N | O | P | Q | R | S | T | U | V | W | X | Y | Z
    // Keys without one
    | F1 | F2 | F3 | F4 | F5 | F6 | F7 | F8 | F9 | F10 | F11 | F12
    | Up | Down | Left | Right
    | RAlt | LAlt | Alt
    | RCtrl | LCtrl | Ctrl
    | RShift | LShift | Shift
    | Super | Esc | Backspace | Return | Space | Tab
    | UK
    | XF86AudioRaiseVolume | XF86AudioLowerVolume
    | XF86AudioMute
    | XF86AudioPrev | XF86AudioNext
    | XF86AudioPlay | XF86AudioStop
    | XF86MonBrightnessUp | XF86MonBrightnessDown

  /** The side-specific modifier variants. */
  predicate IsSided(k: Key) {
    k.LAlt? || k.RAlt? || k.LCtrl? || k.RCtrl? || k.LShift? || k.RShift?
  }

  /** The four modifiers a configured combination may start with. */
  predicate IsGenericModifier(k: Key) {
    k.Alt? || k.Shift? || k.Ctrl? || k.Super?
  }

  /** The scan codes the table of `Key::from_code` lists. */
  predicate IsListedCode(code: u16) {
    (1 <= code <= 54) || code == 56 || code == 57 || (59 <= code <= 68)
    || code == 87 || code == 88 || code == 97 || code == 100 || code == 103
    || code == 105 || code == 106 || code == 108 || (113 <= code <= 115)
    || code == 125 || (163 <= code <= 166)
  }

  /** `Key::from_code`: the key of a kernel scan code (the `KEY_*` values of
      the Linux header input-event-codes.h). */
  function FromCode(code: u16): Key
  {
    match code
    case 1 => Esc
    case 2 => Num1
    case 3 => Num2
    case 4 => Num3
    case 5 => Num4
    case 6 => Num5
    case 7 => Num6
    case 8 => Num7
    case 9 => Num8
    case 10 => Num9
    case 11 => Num0
    case 12 => Dash
    case 13 => Equal
    case 14 => Backspace
    case 15 => Tab
    case 16 => Q
    case 17 => W
    case 18 => E
    case 19 => R
    case 20 => T
    case 21 => Y
    case 22 => U
    case 23 => I
    case 24 => O
    case 25 => P
    case 26 => LSquareBracket
    case 27 => RSquareBracket
    case 28 => Return
    case 29 => Ctrl  // left control
    case 30 => A
    case 31 => S
    case 32 => D
    case 33 => F
    case 34 => G
    case 35 => H
    case 36 => J
    case 37 => K
    case 38 => L
    case 39 => SemiColon
    case 40 => Apostrophe
    case 41 => Tick
    case 42 => Shift  // left shift
    case 43 => BackSlash
    case 44 => Z
    case 45 => X
    case 46 => C
    case 47 => V
    case 48 => B
    case 49 => N
    case 50 => M
    case 51 => Comma
    case 52 => Dot
    case 53 => Slash
    case 54 => Shift  // right shift
    case 56 => Alt    // left alt
    case 57 => Space
    case 59 => F1
    case 60 => F2
    case 61 => F3
    case 62 => F4
    case 63 => F5
    case 64 => F6
    case 65 => F7
    case 66 => F8
    case 67 => F9
    case 68 => F10
    case 87 => F11
    case 88 => F12
    case 97 => Ctrl   // right control
    case 100 => Alt   // right alt
    case 103 => Up
    case 105 => Left
    case 106 => Right
    case 108 => Down
    case 113 => XF86AudioMute
    case 114 => XF86AudioLowerVolume
    case 115 => XF86AudioRaiseVolume
    case 163 => XF86AudioNext
    case 164 => XF86AudioPlay
    case 165 => XF86AudioPrev
    case 166 => XF86AudioStop
    case 125 => Super
    case _ => UK
  }

  /** The kernel scan code of a key, independent of the table above: the
      left-hand code for a generic modifier, nothing for keys no code
      produces. */
  function CodeOf(k: Key): Option<u16> {
    match k
    case UK | LAlt | RAlt | LCtrl | RCtrl | LShift | RShift
       | XF86MonBrightnessUp | XF86MonBrightnessDown => None
    case Esc => Some(1)
    case Num1 => Some(2)
    case Num2 => Some(3)
    case Num3 => Some(4)
    case Num4 => Some(5)
    case Num5 => Some(6)
    case Num6 => Some(7)
    case Num7 => Some(8)
    case Num8 => Some(9)
    case Num9 => Some(10)
    case Num0 => Some(11)
    case Dash => Some(12)
    case Equal => Some(13)
    case Backspace => Some(14)
    case Tab => Some(15)
    case Q => Some(16)
    case W => Some(17)
    case E => Some(18)
    case R => Some(19)
    case T => Some(20)
    case Y => Some(21)
    case U => Some(22)
    case I => Some(23)
    case O => Some(24)
    case P => Some(25)
    case LSquareBracket => Some(26)
    case RSquareBracket => Some(27)
    case Return => Some(28)
    case Ctrl => Some(29)
    case A => Some(30)
    case S => Some(31)
    case D => Some(32)
    case F => Some(33)
    case G => Some(34)
    case H => Some(35)
    case J => Some(36)
    case K => Some(37)
    case L => Some(38)
    case SemiColon => Some(39)
    case Apostrophe => Some(40)
    case Tick => Some(41)
    case Shift => Some(42)
    case BackSlash => Some(43)
    case Z => Some(44)
    case X => Some(45)
    case C => Some(46)
    case V => Some(47)
    case B => Some(48)
    case N => Some(49)
    case M => Some(50)
    case Comma => Some(51)
    case Dot => Some(52)
    case Slash => Some(53)
    case Alt => Some(56)
    case Space => Some(57)
    case F1 => Some(59)
    case F2 => Some(60)
    case F3 => Some(61)
    case F4 => Some(62)
    case F5 => Some(63)
    case F6 => Some(64)
    case F7 => Some(65)
    case F8 => Some(66)
    case F9 => Some(67)
    case F10 => Some(68)
    case F11 => Some(87)
    case F12 => Some(88)
    case Up => Some(103)
    case Left => Some(105)
    case Right => Some(106)
    case Down => Some(108)
    case XF86AudioMute => Some(113)
    case XF86AudioLowerVolume => Some(114)
    case XF86AudioRaiseVolume => Some(115)
    case XF86AudioNext => Some(163)
    case XF86AudioPlay => Some(164)
    case XF86AudioPrev => Some(165)
    case XF86AudioStop => Some(166)
    case Super => Some(125)
  }

  /** `FromCode` is total and falls back to `UK` exactly off the table; it
      never yields a side-specific modifier or a brightness key. */
  lemma FromCodeTotal(code: u16)
    ensures FromCode(code) == UK <==> !IsListedCode(code)
    ensures !IsSided(FromCode(code))
    ensures !FromCode(code).XF86MonBrightnessUp? && !FromCode(code).XF86MonBrightnessDown?
  {
    // Splitting the codes into ranges gives the solver one small part of
    // the match at a time.
    if code <= 54 {
    } else if code <= 100 {
    } else {
    }
  }

  /** Every key that has a scan code is produced by `FromCode` from it. */
  lemma FromCodeInvertsCodeOf(k: Key)
    ensures CodeOf(k).Some? ==> FromCode(CodeOf(k).value) == k
  {
    // One case per key, so that each case evaluates both tables at a single
    // constant rather than all of them at once.
    match k
    case Num0 =>
    case Num1 =>
    case Num2 =>
    case Num3 =>
    case Num4 =>
    case Num5 =>
    case Num6 =>
    case Num7 =>
    case Num8 =>
    case Num9 =>
    case Dash =>
    case Tick =>
    case Equal =>
    case Dot =>
    case Comma =>
    case Slash =>
    case SemiColon =>
    case Apostrophe =>
    case BackSlash =>
    case LSquareBracket =>
    case RSquareBracket =>
    case A =>
    case B =>
    case C =>
    case D =>
    case E =>
    case F =>
    case G =>
    case H =>
    case I =>
    case J =>
    case K =>
    case L =>
    case M =>
    case N =>
    case O =>
    case P =>
    case Q =>
    case R =>
    case S =>
    case T =>
    case U =>
    case V =>
    case W =>
    case X =>
    case Y =>
    case Z =>
    case F1 =>
    case F2 =>
    case F3 =>
    case F4 =>
    case F5 =>
    case F6 =>
    case F7 =>
    case F8 =>
    case F9 =>
    case F10 =>
    case F11 =>
    case F12 =>
    case Up =>
    case Down =>
    case Left =>
    case Right =>
    case RAlt =>
    case LAlt =>
    case Alt =>
    case RCtrl =>
    case LCtrl =>
    case Ctrl =>
    case RShift =>
    case LShift =>
    case Shift =>
    case Super =>
    case Esc =>
    case Backspace =>
    case Return =>
    case Space =>
    case Tab =>
    case UK =>
    case XF86AudioRaiseVolume =>
    case XF86AudioLowerVolume =>
    case XF86AudioMute =>
    case XF86AudioPrev =>
    case XF86AudioNext =>
    case XF86AudioPlay =>
    case XF86AudioStop =>
    case XF86MonBrightnessUp =>
    case XF86MonBrightnessDown =>
  }

  /** Left and right physical modifiers collapse to one generic key each, and
      no other code yields a modifier. */
  lemma GenericModifierCodes(code: u16)
    ensures FromCode(code) == Ctrl <==> code == 29 || code == 97
    ensures FromCode(code) == Shift <==> code == 42 || code == 54
    ensures FromCode(code) == Alt <==> code == 56 || code == 100
    ensures FromCode(code) == Super <==> code == 125
  {
    // Splitting the codes into ranges gives the solver one small part of
    // the match at a time.
    if code <= 54 {
    } else if code <= 100 {
    } else {
    }
  }

  /** F11 and F12 are KEY_F11 = 87 and KEY_F12 = 88. */
  lemma FunctionKeyCodes(code: u16)
    ensures FromCode(code) == F11 <==> code == 87
    ensures FromCode(code) == F12 <==> code == 88
  {
  }

  // ---------------------------------------------------------------------
  // Configuration tokens (`Key::from_str`)

  /** What `Key::from_str` produces: a list of keys, or the `unreachable!()`
      panic of its named-key match. */
  datatype Parsed = Keys(keys: seq<Key>) | Unreachable

  /** The guard literal split across two source lines: it holds a newline. */
  const SplitLowerVolume: string := "xf86audio\nlowervolume"

  /** The names the `is_unique` guard accepts, exactly as written. */
  const GuardNames: set<string> := {
    "alt", "ctrl", "super", "shift", "esc", "backspace", "return", "space", "tab",
    "f1", "f2", "f3", "f4", "f5", "f6", "f7", "f8", "f9", "f10", "f11", "f12",
    "up", "down", "left", "right",
    "xf86audiomute", SplitLowerVolume, "xf86audioraisevolume", "xf86audionext",
    "xf86audioplay", "xf86audioprev", "xf86audiostop"
  }

  /** The arms of the named-key match that follows the guard. */
  const NamedKeys: map<string, Key> := map[
    "alt" := Alt, "ctrl" := Ctrl, "shift" := Shift, "super" := Super,
    "esc" := Esc, "backspace" := Backspace, "return" := Return, "space" := Space, "tab" := Tab,
    "f1" := F1, "f2" := F2, "f3" := F3, "f4" := F4, "f5" := F5, "f6" := F6,
    "f7" := F7, "f8" := F8, "f9" := F9, "f10" := F10, "f11" := F11, "f12" := F12,
    "up" := Up, "down" := Down, "left" := Left, "right" := Right,
    "xf86audiomute" := XF86AudioMute, "xf86audiolowervolume" := XF86AudioLowerVolume,
    "xf86audioraisevolume" := XF86AudioRaiseVolume, "xf86audionext" := XF86AudioNext,
    "xf86audioplay" := XF86AudioPlay, "xf86audioprev" := XF86AudioPrev,
    "xf86audiostop" := XF86AudioStop
  ]

  /** The characters that need Shift on a US layout. */
  predicate IsShiftedChar(ch: char) {
    ch == '!' || ch == '@' || ch == '#' || ch == '$' || ch == '%' || ch == '^'
    || ch == '&' || ch == '*' || ch == '(' || ch == ')' || ch == '_' || ch == '+'
    || ch == '<' || ch == '>' || ch == '?' || ch == ':' || ch == '"' || ch == '|'
    || ch == '{' || ch == '}' || ch == '~' || ('A' <= ch <= 'Z')
  }

  /** The key a character is typed with (shifted or not), or `UK`. */
  function CharKey(ch: char): Key {
    match ch
    case '`' | '~' => Tick
    case '0' | ')' => Num0
    case '1' | '!' => Num1
    case '2' | '@' => Num2
    case '3' | '#' => Num3
    case '4' | '$' => Num4
    case '5' | '%' => Num5
    case '6' | '^' => Num6
    case '7' | '&' => Num7
    case '8' | '*' => Num8
    case '9' | '(' => Num9
    case '-' | '_' => Dash
    case '=' | '+' => Equal
    case '.' | '>' => Dot
    case ',' | '<' => Comma
    case '/' | '?' => Slash
    case ';' | ':' => SemiColon
    case '\'' | '"' => Apostrophe
    case '\\' | '|' => BackSlash
    case '[' | '{' => LSquareBracket
    case ']' | '}' => RSquareBracket
    case 'a' | 'A' => A
    case 'b' | 'B' => B
    case 'c' | 'C' => C
    case 'd' | 'D' => D
    case 'e' | 'E' => E
    case 'f' | 'F' => F
    case 'g' | 'G' => G
    case 'h' | 'H' => H
    case 'i' | 'I' => I
    case 'j' | 'J' => J
    case 'k' | 'K' => K
    case 'l' | 'L' => L
    case 'm' | 'M' => M
    case 'n' | 'N' => N
    case 'o' | 'O' => O
    case 'p' | 'P' => P
    case 'q' | 'Q' => Q
    case 'r' | 'R' => R
    case 's' | 'S' => S
    case 't' | 'T' => T
    case 'u' | 'U' => U
    case 'v' | 'V' => V
    case 'w' | 'W' => W
    case 'x' | 'X' => X
    case 'y' | 'Y' => Y
    case 'z' | 'Z' => Z
    case _ => UK
  }

  /** The shape every token result has: at most two keys; a pair is `Shift`
      followed by a real, non-`Shift` key; no side-specific modifier. */
  predicate WellShaped(ks: seq<Key>) {
    |ks| <= 2
    && (|ks| == 2 ==> ks[0] == Shift && ks[1] != Shift && ks[1] != UK)
    && (forall k :: k in ks ==> !IsSided(k))
  }

  /** `Key::from_str` parameterised by the guard's name list: named tokens
      are compared lower-cased; any other token is read from the first
      character of the original token only. */
  function Resolve(token: string, guard: set<string>): Parsed
  {
    var lower := Lower(token);
    if lower in guard then
      if lower in NamedKeys then Keys([NamedKeys[lower]]) else Unreachable
    else if |token| == 0 then Keys([])
    else
      var ch := token[0];
      if IsShiftedChar(ch) then Keys([Shift, CharKey(ch)]) else Keys([CharKey(ch)])
  }

  /** `Key::from_str` as written. */
  function FromStr(token: string): (r: Parsed)
    ensures r.Unreachable? <==> Lower(token) == SplitLowerVolume
    ensures r.Keys? ==> WellShaped(r.keys)
    ensures |token| == 0 ==> r == Keys([])
  {
    GuardMatchesArmsButOne();
    ResolveWellShaped(token, GuardNames);
    Resolve(token, GuardNames)
  }

  /** `Key::from_str` with the guard literal joined onto one line, so that
      the guard and the match list the same names. */
  function FromStrFixed(token: string): (r: Parsed)
    ensures r.Keys?
    ensures Lower(token) in NamedKeys ==> r == Keys([NamedKeys[Lower(token)]])
  {
    Resolve(token, NamedKeys.Keys)
  }

  /** A character's key is never a modifier, and every shifted character
      has a real key. */
  lemma CharKeyShape(ch: char)
    ensures !IsSided(CharKey(ch)) && !IsGenericModifier(CharKey(ch))
    ensures IsShiftedChar(ch) ==> CharKey(ch) != UK
  {
  }

  /** No named key is a side-specific modifier. */
  lemma NamedKeysUnsided()
    ensures forall n :: n in NamedKeys ==> !IsSided(NamedKeys[n])
  {
  }

  /** Whatever the guard, a resolved token has the expected shape. */
  lemma ResolveWellShaped(token: string, guard: set<string>)
    ensures Resolve(token, guard).Keys? ==> WellShaped(Resolve(token, guard).keys)
  {
    NamedKeysUnsided();
    if |token| > 0 {
      CharKeyShape(token[0]);
    }
  }

  /** A one-character token is never a name, so it is read as a character. */
  lemma ResolveOneChar(ch: char, guard: set<string>)
    requires forall n :: n in guard ==> |n| >= 2
    ensures Resolve([ch], guard)
            == if IsShiftedChar(ch) then Keys([Shift, CharKey(ch)]) else Keys([CharKey(ch)])
  {
    assert |Lower([ch])| == 1;
  }

  /** Every guard name starts with a lower-case ASCII letter other than
      `k`. */
  lemma GuardNamesStartWithLetters()
    ensures forall n :: n in GuardNames ==> |n| > 0 && 'a' <= n[0] <= 'z' && n[0] != 'k'
  {
  }

  /** Every guard name is at least two characters long. */
  lemma GuardNamesAreLong()
    ensures forall n :: n in GuardNames ==> |n| >= 2
  {
  }

  /** A one-character token is read as a character: its key, with `Shift`
      in front when the character is a shifted one. */
  lemma FromStrOneChar(ch: char)
    ensures FromStr([ch])
            == if IsShiftedChar(ch) then Keys([Shift, CharKey(ch)]) else Keys([CharKey(ch)])
  {
    GuardNamesAreLong();
    ResolveOneChar(ch, GuardNames);
  }

  /** A token that is not a guard name is read from its first character. */
  lemma FromStrUnnamed(token: string)
    requires Lower(token) !in GuardNames && |token| > 0
    ensures FromStr(token)
            == if IsShiftedChar(token[0]) then Keys([Shift, CharKey(token[0])]) else Keys([CharKey(token[0])])
  {
  }

  /** A character above `~` (DEL and everything beyond ASCII) has no key
      and is not shifted. */
  lemma CharKeyAboveTilde(ch: char)
    requires ch as int > 0x7E
    ensures CharKey(ch) == UK && !IsShiftedChar(ch)
  {
  }

  /** Both cases of the letter k are typed with the K key. */
  lemma CharKeyOfK()
    ensures CharKey('k') == K && CharKey('K') == K
  {
  }

  /** Both cases of the letter x are typed with the X key. */
  lemma CharKeyOfX()
    ensures CharKey('x') == X && CharKey('X') == X
  {
  }

  /** The guard and the match differ in exactly one name: the split one. */
  lemma GuardMatchesArmsButOne()
    ensures GuardNames - {SplitLowerVolume} == NamedKeys.Keys - {"xf86audiolowervolume"}
    ensures SplitLowerVolume in GuardNames && SplitLowerVolume !in NamedKeys
    ensures "xf86audiolowervolume" !in GuardNames
  {
  }

  /** A token whose lower-cased form is a named key yields exactly that key;
      modifiers come back in generic form. */
  lemma FromStrNamed(token: string)
    requires Lower(token) in GuardNames && Lower(token) != SplitLowerVolume
    ensures Lower(token) in NamedKeys
    ensures FromStr(token) == Keys([NamedKeys[Lower(token)]])
    ensures Lower(token) == "ctrl" ==> FromStr(token) == Keys([Ctrl])
    ensures Lower(token) == "shift" ==> FromStr(token) == Keys([Shift])
    ensures Lower(token) == "alt" ==> FromStr(token) == Keys([Alt])
    ensures Lower(token) == "super" ==> FromStr(token) == Keys([Super])
  {
    GuardMatchesArmsButOne();
    assert Lower(token) in NamedKeys;
    assert FromStr(token) == Keys([NamedKeys[Lower(token)]]);
  }

  /** Any other token is decided by its first character alone. */
  lemma FromStrFirstCharOnly(t1: string, t2: string)
    requires Lower(t1) !in GuardNames && Lower(t2) !in GuardNames
    requires |t1| > 0 && |t2| > 0 && t1[0] == t2[0]
    ensures FromStr(t1) == FromStr(t2)
  {
  }

  /** A lower-case letter token is read as its key alone. */
  lemma PlainLetterToken()
    ensures FromStr("k") == Keys([K])
  {
    FromStrOneChar('k');
    CharKeyOfK();
  }

  /** An upper-case letter token gets `Shift` in front: the token `K`
      gives what the tokens `Shift` and `k` give together. */
  lemma ShiftedLetterToken()
    ensures FromStr("K") == Keys([Shift, K])
  {
    FromStrOneChar('K');
    CharKeyOfK();
  }

  /** The shifted form of a punctuation key yields `Shift` and the key. */
  lemma ShiftedPunctuationToken()
    ensures FromStr("+") == Keys([Shift, Equal])
  {
    FromStrOneChar('+');
    assert CharKey('+') == Equal;
  }

  /** An unmapped character yields the unknown sentinel alone. */
  lemma UnmappedCharToken()
    ensures FromStr("\U{E9}") == Keys([UK])
  {
    FromStrOneChar('\U{E9}');
    CharKeyAboveTilde('\U{E9}');
  }

  /** Any token whose first character has no key yields the unknown
      sentinel alone: no guard name starts with such a character. */
  lemma UnmappedFirstChar(token: string)
    requires |token| > 0 && CharKey(token[0]) == UK
    ensures FromStr(token) == Keys([UK])
  {
    if Lower(token) in GuardNames {
      GuardNamesStartWithLetters();
      assert 'a' <= LowerChar(token[0]) <= 'z' && LowerChar(token[0]) != 'k';
      LettersHaveKeys(token[0]);
    }
    FromStrUnnamed(token);
  }

  /** Every ASCII letter has a key. */
  lemma LettersHaveKeys(ch: char)
    ensures 'a' <= ch <= 'z' || 'A' <= ch <= 'Z' ==> CharKey(ch) != UK
  {
  }

  /** The written and the corrected tables agree on every token except the
      two spellings of the volume-down name. */
  lemma FromStrAgreesWithFixed(token: string)
    requires Lower(token) != SplitLowerVolume && Lower(token) != "xf86audiolowervolume"
    ensures FromStr(token) == FromStrFixed(token)
  {
    GuardMatchesArmsButOne();
    assert Lower(token) in GuardNames <==> Lower(token) in NamedKeys.Keys;
  }

  /** Because of the split guard literal, the real volume-down name is read
      from its first character, and only the name holding the newline
      reaches the `unreachable!()` arm. */
  lemma LowerVolumeNameIsNotNamed()
    ensures FromStr("xf86audiolowervolume") == Keys([X])
  {
    GuardMatchesArmsButOne();
    var name := "xf86audiolowervolume";
    assert Lower(name) == name;
    FromStrUnnamed(name);
    CharKeyOfX();
  }

  /** Capitalised, the volume-down name reads as `Shift` and `X`. */
  lemma CapitalisedLowerVolumeName()
    ensures FromStr("XF86AudioLowerVolume") == Keys([Shift, X])
  {
    GuardMatchesArmsButOne();
    assert Lower("XF86AudioLowerVolume") == "xf86audiolowervolume";
    FromStrUnnamed("XF86AudioLowerVolume");
    CharKeyOfX();
  }

  /** The panic needs a line feed in the token: lowering never makes one,
      so a token without a line feed always resolves to keys. */
  lemma SplitNamePanics(token: string)
    ensures FromStr(token).Unreachable? ==> '\n' in token
    ensures '\n' !in token ==> FromStr(token).Keys?
  {
    if FromStr(token).Unreachable? {
      assert Lower(token)[9] == SplitLowerVolume[9] == '\n';
      assert LowerChar(token[9]) == '\n';
      assert token[9] == '\n';
    }
  }

  /** With the literal joined, the volume-down name resolves to its key. */
  lemma FixedLowerVolumeIsNamed()
    ensures FromStrFixed("xf86audiolowervolume") == Keys([XF86AudioLowerVolume])
  {
    var name := "xf86audiolowervolume";
    assert Lower(name) == name;
  }
}

=== FILE: listener.dfy ===
/** The per-device listener of the daemon: each read of a device file
    updates the ordered sequence of held keys, and every key event is
    followed by a lookup of that sequence in the binding table. */
module Listener {
  import opened Wrappers
  import opened Ints
  import opened Strings
  import Input

  /** Parses a whole 24-byte record into an event, or fails; the parser of
      the daemon is a parameter of this model. */
  type Decoder = seq<byte> -> Option<Input.InputEvent>

  /** Position of the first element equal to `k`: the search loop that a
      release runs over the held keys. */
  function FirstIndex<K(==)>(s: seq<K>, k: K): (r: Option<nat>)
    ensures r.None? <==> k !in s
    ensures r.Some? ==> r.value < |s| && s[r.value] == k && k !in s[..r.value]
    decreases |s|
  {
    if |s| == 0 then None
    else if s[0] == k then Some(0)
    else
      match FirstIndex(s[1..], k)
      case None => None
      case Some(i) =>
        assert s[..i + 1] == [s[0]] + s[1..][..i];
        Some(i + 1)
  }

  /** Removes the first element equal to `k`, if any; the other elements
      keep their order. */
  function RemoveFirst<K(==)>(s: seq<K>, k: K): (r: seq<K>)
    ensures k !in s ==> r == s
    ensures k in s ==> exists i :: 0 <= i < |s| && s[i] == k && k !in s[..i] && r == s[..i] + s[i + 1..]
  {
    match FirstIndex(s, k)
    case None => s
    case Some(i) => s[..i] + s[i + 1..]
  }

  /** Removing the first occurrence takes one copy of `k` out of the
      multiset of held keys, and nothing when there is none. */
  lemma RemoveFirstMultiset<K>(s: seq<K>, k: K)
    ensures multiset(RemoveFirst(s, k)) == multiset(s) - multiset{k}
  {
    if k in s {
      var i := FirstIndex(s, k).value;
      assert s == s[..i] + [k] + s[i + 1..];
      assert multiset(s) == multiset(s[..i]) + multiset{k} + multiset(s[i + 1..]);
    } else {
      assert multiset(s)[k] == 0;
    }
  }

  /** What a step produces: the new held keys, and the sequence handed to
      the lookup if one is attempted. */
  datatype StepResult<K> = StepResult(held: seq<K>, lookup: Option<seq<K>>)

  /** The event a read yields when it fills a whole record that parses. */
  function EventOf(read: Input.Read, decode: Decoder): Option<Input.InputEvent> {
    if read.ReadBytes? && |read.bytes| == Input.SizeOfInputEvent then decode(read.bytes)
    else None
  }

  /** A read that yields a key event, of any value. */
  predicate IsKeyRead(read: Input.Read, decode: Decoder) {
    var e := EventOf(read, decode);
    e.Some? && Input.IsKeyEvent(e.value)
  }

  /** A read that yields a press of `k`. */
  predicate PressesKey<K(==)>(read: Input.Read, decode: Decoder, asKey: u16 -> K, k: K) {
    var e := EventOf(read, decode);
    e.Some? && Input.IsKeyEvent(e.value) && Input.IsKeyPress(e.value) && asKey(e.value.code) == k
  }

  /** A read that yields a release of `k`. */
  predicate ReleasesKey<K(==)>(read: Input.Read, decode: Decoder, asKey: u16 -> K, k: K) {
    var e := EventOf(read, decode);
    e.Some? && Input.IsKeyEvent(e.value) && Input.IsKeyRelease(e.value) && asKey(e.value.code) == k
  }

  /** One iteration of `listen`. A failed read, a read of the wrong size, a
      record that does not parse and a non-key event change nothing and
      look nothing up. A key event presses (appends its key), releases
      (removes the first equal key) or does neither, and then the held
      sequence is looked up. */
  function Step<K(==)>(held: seq<K>, read: Input.Read, decode: Decoder, asKey: u16 -> K): (r: StepResult<K>)
    ensures r.lookup.Some? ==> r.lookup.value == r.held
    ensures r.lookup.None? ==> r.held == held
  {
    match read
    case ReadFailed => StepResult(held, None)
    case ReadBytes(bytes) =>
      if |bytes| != Input.SizeOfInputEvent then StepResult(held, None)
      else
        match decode(bytes)
        case None => StepResult(held, None)
        case Some(event) =>
          if !Input.IsKeyEvent(event) then StepResult(held, None)
          else
            var held' :=
              if Input.IsKeyPress(event) then held + [asKey(event.code)]
              else if Input.IsKeyRelease(event) then RemoveFirst(held, asKey(event.code))
              else held;
            StepResult(held', Some(held'))
  }

  /** A lookup follows exactly the reads that yield a key event. */
  lemma StepLooksUpIff<K>(held: seq<K>, read: Input.Read, decode: Decoder, asKey: u16 -> K)
    ensures Step(held, read, decode, asKey).lookup.Some? <==> IsKeyRead(read, decode)
  {
  }

  /** How one step moves the held keys: a press appends at the end, even
      when the key is already held; a release removes the first equal key
      and keeps the order of the rest; any other read leaves them alone. */
  lemma StepHeld<K>(held: seq<K>, read: Input.Read, decode: Decoder, asKey: u16 -> K)
    ensures var r := Step(held, read, decode, asKey);
            var e := EventOf(read, decode);
            if e.Some? && Input.IsKeyEvent(e.value) && Input.IsKeyPress(e.value) then
              r.held == held + [asKey(e.value.code)]
            else if e.Some? && Input.IsKeyEvent(e.value) && Input.IsKeyRelease(e.value) then
              r.held == RemoveFirst(held, asKey(e.value.code))
            else r.held == held
  {
    var e := EventOf(read, decode);
    if e.Some? {
      Input.PressReleaseExclusive(e.value);
    }
  }

  /** Per key, the number of copies held rises by one on its press and
      falls by one on its release, never below zero. */
  lemma StepMultiplicity<K>(held: seq<K>, read: Input.Read, decode: Decoder, asKey: u16 -> K, k: K)
    ensures var n := multiset(Step(held, read, decode, asKey).held)[k];
            if PressesKey(read, decode, asKey, k) then n == multiset(held)[k] + 1
            else if ReleasesKey(read, decode, asKey, k) then
              n == if multiset(held)[k] == 0 then 0 else multiset(held)[k] - 1
            else n == multiset(held)[k]
  {
    StepHeld(held, read, decode, asKey);
    var e := EventOf(read, decode);
    if e.Some? && Input.IsKeyEvent(e.value) && Input.IsKeyRelease(e.value) {
      RemoveFirstMultiset(held, asKey(e.value.code));
      Input.PressReleaseExclusive(e.value);
    }
  }

  /** The daemon's record layout as the parser: every 24-byte record
      parses. */
  function LayoutDecoder(): Decoder {
    b => if |b| == Input.SizeOfInputEvent then Some(Input.Decode(b)) else None
  }

  /** With that parser, the record the kernel writes for an auto-repeat
      (value 2) leaves the held keys alone but is still looked up, so a held
      combination is looked up again on every repeat. */
  lemma RepeatIsLookedUp<K>(held: seq<K>, time: seq<byte>, code: u16, asKey: u16 -> K)
    requires |time| == Input.TimeFieldsSize
    ensures Step(held, Input.ReadBytes(Input.Encode(time, Input.InputEvent(Input.KeyEv, code, 2))), LayoutDecoder(), asKey)
            == StepResult(held, Some(held))
  {
    Input.DecodeEncode(time, Input.InputEvent(Input.KeyEv, code, 2));
  }

  /** With that parser, a release is looked up too: releasing one key of a
      held combination looks up what remains. */
  lemma ReleaseIsLookedUp<K>(held: seq<K>, time: seq<byte>, code: u16, asKey: u16 -> K)
    requires |time| == Input.TimeFieldsSize
    ensures var r := Step(held, Input.ReadBytes(Input.Encode(time, Input.InputEvent(Input.KeyEv, code, Input.KeyRelease))), LayoutDecoder(), asKey);
            r.lookup == Some(r.held) && r.held == RemoveFirst(held, asKey(code))
  {
    Input.DecodeEncode(time, Input.InputEvent(Input.KeyEv, code, Input.KeyRelease));
  }

  /** What the loop of `listen` produces over a sequence of reads: the
      final held keys and every sequence that was looked up, in order. A
      failed read does not end the loop. */
  datatype Trace<K> = Trace(held: seq<K>, lookups: seq<seq<K>>)

  function Listen<K(==)>(held: seq<K>, stream: seq<Input.Read>, decode: Decoder, asKey: u16 -> K): Trace<K>
    decreases |stream|
  {
    if |stream| == 0 then Trace(held, [])
    else
      var step := Step(held, stream[0], decode, asKey);
      var rest := Listen(step.held, stream[1..], decode, asKey);
      match step.lookup
      case None => rest
      case Some(combination) => Trace(rest.held, [combination] + rest.lookups)
  }

  /** There is one lookup per read that yields a key event, and the last
      lookup is of the final held keys. */
  lemma {:induction false} ListenLookups<K>(held: seq<K>, stream: seq<Input.Read>, decode: Decoder, asKey: u16 -> K)
    ensures |Listen(held, stream, decode, asKey).lookups| == |Filter(stream, r => IsKeyRead(r, decode))|
    ensures var t := Listen(held, stream, decode, asKey);
            if |t.lookups| == 0 then t.held == held else t.lookups[|t.lookups| - 1] == t.held
    decreases |stream|
  {
    if |stream| > 0 {
      var step := Step(held, stream[0], decode, asKey);
      var rest := Listen(step.held, stream[1..], decode, asKey);
      var keyRead := r => IsKeyRead(r, decode);
      ListenLookups(step.held, stream[1..], decode, asKey);
      StepLooksUpIff(held, stream[0], decode, asKey);
      assert |Filter(stream, keyRead)|
             == (if keyRead(stream[0]) then 1 else 0) + |Filter(stream[1..], keyRead)|;
      if step.lookup.Some? {
        assert Listen(held, stream, decode, asKey) == Trace(rest.held, [step.held] + rest.lookups);
      } else {
        assert Listen(held, stream, decode, asKey) == rest;
      }
    }
  }

  /** Failed and short reads are skipped: removing them from the stream
      changes neither the held keys nor the lookups. */
  lemma {:induction false} ListenSkipsNonRecords<K>(held: seq<K>, stream: seq<Input.Read>, decode: Decoder, asKey: u16 -> K)
    ensures Listen(held, stream, decode, asKey)
            == Listen(held, Filter(stream, Input.IsRecord), decode, asKey)
    decreases |stream|
  {
    if |stream| > 0 {
      ListenSkipsNonRecords(Step(held, stream[0], decode, asKey).held, stream[1..], decode, asKey);
      if Input.IsRecord(stream[0]) {
        assert Filter(stream, Input.IsRecord) == [stream[0]] + Filter(stream[1..], Input.IsRecord);
        assert ([stream[0]] + Filter(stream[1..], Input.IsRecord))[1..] == Filter(stream[1..], Input.IsRecord);
      }
    }
  }

  /** Every copy of a key held at the end was held at the start or comes
      from a press of that key in the stream. */
  lemma {:induction false} HeldBoundedByPresses<K>(held: seq<K>, stream: seq<Input.Read>, decode: Decoder, asKey: u16 -> K, k: K)
    ensures multiset(Listen(held, stream, decode, asKey).held)[k]
            <= multiset(held)[k] + |Filter(stream, r => PressesKey(r, decode, asKey, k))|
    decreases |stream|
  {
    if |stream| > 0 {
      var step := Step(held, stream[0], decode, asKey);
      HeldBoundedByPresses(step.held, stream[1..], decode, asKey, k);
      StepMultiplicity(held, stream[0], decode, asKey, k);
      assert Listen(held, stream, decode, asKey).held == Listen(step.held, stream[1..], decode, asKey).held;
    }
  }
}

=== FILE: strings.dfy ===
/** The pieces of Rust's `str` API that the daemon relies on, over `string`
    (a sequence of Unicode scalar values). */
module Strings {
  import opened Wrappers

  /** `s.starts_with(prefix)`. */
  predicate StartsWith(s: string, prefix: string) {
    |prefix| <= |s| && s[..|prefix|] == prefix
  }

  /** `pat` occurs in `s` starting at position `i`. */
  predicate OccursAt(s: string, i: nat, pat: string) {
    i + |pat| <= |s| && s[i..i + |pat|] == pat
  }

  /** `s.find(pat)`: the position of the leftmost occurrence of `pat`. */
  function IndexOf(s: string, pat: string): (r: Option<nat>)
    ensures r.Some? ==> OccursAt(s, r.value, pat)
    ensures r.Some? ==> forall j :: 0 <= j < r.value ==> !OccursAt(s, j, pat)
    ensures r.None? ==> forall j :: 0 <= j <= |s| ==> !OccursAt(s, j, pat)
    decreases |s|
  {
    if OccursAt(s, 0, pat) then Some(0)
    else if |s| == 0 then None
    else
      var tail := s[1..];
      match IndexOf(tail, pat)
      case None =>
        assert forall j :: 1 <= j <= |s| ==> !OccursAt(s, j, pat) by {
          forall j | 1 <= j <= |s|
            ensures !OccursAt(s, j, pat)
          {
            OccursInTail(s, j, pat);
          }
        }
        None
      case Some(i) =>
        assert forall j :: 1 <= j < i + 1 ==> !OccursAt(s, j, pat) by {
          forall j | 1 <= j < i + 1
            ensures !OccursAt(s, j, pat)
          {
            OccursInTail(s, j, pat);
          }
        }
        OccursInTail(s, i + 1, pat);
        Some(i + 1)
  }

  /** An occurrence at `j` in `s` is one at `j - 1` in `s[1..]`. */
  lemma OccursInTail(s: string, j: nat, pat: string)
    requires 1 <= j <= |s|
    ensures OccursAt(s, j, pat) <==> OccursAt(s[1..], j - 1, pat)
  {
    if j + |pat| <= |s| {
      assert s[1..][j - 1..j - 1 + |pat|] == s[j..j + |pat|];
    }
  }

  /** `s.contains(pat)`. */
  predicate Contains(s: string, pat: string) {
    IndexOf(s, pat).Some?
  }

  /** A one-character pattern is contained exactly when the character is. */
  lemma ContainsChar(s: string, c: char)
    ensures Contains(s, [c]) <==> c in s
  {
    if c in s {
      var j :| 0 <= j < |s| && s[j] == c;
      assert OccursAt(s, j, [c]);
    }
    if Contains(s, [c]) {
      var i := IndexOf(s, [c]).value;
      assert s[i..i + 1] == [c];
      assert s[i] == c;
    }
  }

  /** `s.split(sep)`: the pieces between the non-overlapping occurrences of
      `sep`, scanned from the left; there is always at least one piece.
      Every cut is at the leftmost match: a piece followed by all but the
      last character of the separator still holds no separator, which
      matters for a separator such as `"\n\n"` that overlaps itself. */
  function SplitOn(s: string, sep: string): (r: seq<string>)
    requires |sep| > 0
    ensures |r| >= 1
    ensures forall k :: 0 <= k < |r| ==> !Contains(r[k], sep)
    ensures forall k :: 0 <= k < |r| - 1 ==> !Contains(r[k] + sep[..|sep| - 1], sep)
    decreases |s|
  {
    match IndexOf(s, sep)
    case None => [s]
    case Some(i) =>
      var head := s[..i];
      assert forall j :: 0 <= j <= |head| ==> !OccursAt(head, j, sep) by {
        forall j | 0 <= j <= |head| && OccursAt(head, j, sep)
          ensures false
        {
          assert head[j..j + |sep|] == s[j..j + |sep|];
          assert OccursAt(s, j, sep) && j < i;
        }
      }
      LeftmostCut(s, sep, i);
      [head] + SplitOn(s[i + |sep|..], sep)
  }

  /** Cutting at the leftmost match `i` leaves a first piece that, extended
      by all but the last character of the separator, holds no match. */
  lemma LeftmostCut(s: string, sep: string, i: nat)
    requires |sep| > 0 && IndexOf(s, sep) == Some(i)
    ensures !Contains(s[..i] + sep[..|sep| - 1], sep)
  {
    var w := s[..i] + sep[..|sep| - 1];
    assert w == s[..i + |sep| - 1];
    if Contains(w, sep) {
      var j := IndexOf(w, sep).value;
      assert w[j..j + |sep|] == s[j..j + |sep|];
      assert OccursAt(s, j, sep) && j < i;
    }
  }

  /** `pieces.join(sep)`. */
  function Join(pieces: seq<string>, sep: string): string
    decreases |pieces|
  {
    if |pieces| == 0 then ""
    else if |pieces| == 1 then pieces[0]
    else pieces[0] + sep + Join(pieces[1..], sep)
  }

  /** Splitting loses nothing: joining the pieces with the separator gives
      back the original text. */
  lemma {:induction false} JoinSplit(s: string, sep: string)
    requires |sep| > 0
    ensures Join(SplitOn(s, sep), sep) == s
    decreases |s|
  {
    match IndexOf(s, sep)
    case None =>
    case Some(i) =>
      var rest := s[i + |sep|..];
      var tailPieces := SplitOn(rest, sep);
      JoinSplit(rest, sep);
      var r := SplitOn(s, sep);
      assert r == [s[..i]] + tailPieces;
      assert Join(r, sep) == s[..i] + sep + Join(tailPieces, sep);
      assert s[i..i + |sep|] == sep;
      assert s == s[..i] + s[i..i + |sep|] + rest;
  }

  /** Every piece of a split on a one-character separator is free of it. */
  lemma SplitPiecesAvoidChar(s: string, c: char)
    ensures forall k :: 0 <= k < |SplitOn(s, [c])| ==> c !in SplitOn(s, [c])[k]
  {
    var r := SplitOn(s, [c]);
    forall k | 0 <= k < |r|
      ensures c !in r[k]
    {
      ContainsChar(r[k], c);
    }
  }

  /** Rust's `char::is_whitespace`: the Unicode `White_Space` property. */
  predicate IsWhitespace(c: char) {
    var n := c as int;
    (0x09 <= n <= 0x0D) || n == 0x20 || n == 0x85 || n == 0xA0 || n == 0x1680
    || (0x2000 <= n <= 0x200A) || n == 0x2028 || n == 0x2029 || n == 0x202F
    || n == 0x205F || n == 0x3000
  }

  /** `s.trim_start()`: drops leading whitespace. */
  function TrimStart(s: string): (r: string)
    ensures |r| <= |s| && r == s[|s| - |r|..]
    ensures forall i :: 0 <= i < |s| - |r| ==> IsWhitespace(s[i])
    ensures |r| > 0 ==> !IsWhitespace(r[0])
    decreases |s|
  {
    if |s| > 0 && IsWhitespace(s[0]) then TrimStart(s[1..]) else s
  }

  /** `s.trim_end()`: drops trailing whitespace. */
  function TrimEnd(s: string): (r: string)
    ensures |r| <= |s| && r == s[..|r|]
    ensures forall i :: |r| <= i < |s| ==> IsWhitespace(s[i])
    ensures |r| > 0 ==> !IsWhitespace(r[|r| - 1])
    decreases |s|
  {
    if |s| > 0 && IsWhitespace(s[|s| - 1]) then TrimEnd(s[..|s| - 1]) else s
  }

  /** `r` is `s[i..j]` and everything outside that slice is whitespace. */
  predicate DropsOnlyWhitespace(s: string, r: string, i: nat, j: nat) {
    i <= j <= |s| && r == s[i..j]
    && (forall k :: 0 <= k < i ==> IsWhitespace(s[k]))
    && (forall k :: j <= k < |s| ==> IsWhitespace(s[k]))
  }

  /** `s.trim()`: a contiguous slice of `s` with no whitespace at either end,
      obtained by dropping only whitespace. */
  function Trim(s: string): (r: string)
    ensures exists i: nat, j: nat :: DropsOnlyWhitespace(s, r, i, j)
    ensures |r| > 0 ==> !IsWhitespace(r[0]) && !IsWhitespace(r[|r| - 1])
  {
    var t := TrimStart(s);
    var r := TrimEnd(t);
    var i: nat, j: nat := |s| - |t|, |s| - |t| + |r|;
    DropBothEnds(s, t, r, IsWhitespace);
    assert DropsOnlyWhitespace(s, r, i, j);
    assert |r| > 0 ==> r[0] == t[0];
    r
  }

  /** Dropping a prefix and then a suffix of characters satisfying `drop`
      leaves a slice of the original, and what the second step dropped is a
      suffix of the original. */
  lemma DropBothEnds(s: string, t: string, r: string, drop: char -> bool)
    requires |t| <= |s| && t == s[|s| - |t|..]
    requires |r| <= |t| && r == t[..|r|]
    requires forall k :: |r| <= k < |t| ==> drop(t[k])
    ensures r == s[|s| - |t|..|s| - |t| + |r|]
    ensures forall k :: |s| - |t| + |r| <= k < |s| ==> drop(s[k])
  {
    var i := |s| - |t|;
    forall k | i + |r| <= k < |s|
      ensures drop(s[k])
    {
      assert s[k] == t[k - i];
    }
  }

  /** Lowering of one character, as far as it can reach ASCII: the ASCII
      capitals, and KELVIN SIGN, which Unicode lowers to `k`. KELVIN SIGN is
      the only non-ASCII character whose lower case is ASCII. */
  function LowerChar(c: char): char {
    if 'A' <= c <= 'Z' then (c as int + 32) as char
    else if c == '\U{212A}' then 'k'
    else c
  }

  /** Lower-cases `s` character by character, as far as the result can be
      ASCII; every other character is kept. */
  function Lower(s: string): (r: string)
    ensures |r| == |s|
    ensures forall i :: 0 <= i < |s| ==> r[i] == LowerChar(s[i])
  {
    seq(|s|, i requires 0 <= i < |s| => LowerChar(s[i]))
  }

  /** `sub` can be obtained from `xs` by deleting elements. */
  predicate IsSubsequence<T(==)>(sub: seq<T>, xs: seq<T>)
    decreases |xs|
  {
    |sub| == 0
    || (|xs| > 0 &&
        if sub[0] == xs[0] then IsSubsequence(sub[1..], xs[1..]) else IsSubsequence(sub, xs[1..]))
  }

  /** `xs.into_iter().filter(keep)`: keeps, in order, exactly the elements
      satisfying `keep`. */
  function Filter<T(==,!new)>(xs: seq<T>, keep: T -> bool): (r: seq<T>)
    ensures |r| <= |xs|
    ensures forall x :: x in r <==> x in xs && keep(x)
    ensures IsSubsequence(r, xs)
    ensures forall x :: multiset(r)[x] == if keep(x) then multiset(xs)[x] else 0
    decreases |xs|
  {
    if |xs| == 0 then []
    else
      assert xs == [xs[0]] + xs[1..];
      if keep(xs[0]) then [xs[0]] + Filter(xs[1..], keep)
      else Filter(xs[1..], keep)
  }
}

=== FILE: wrappers.dfy ===
/** Failure-carrying result types shared by the rest of the model. */
module Wrappers {

  /** Rust's `Option<T>`. */
  datatype Option<+T> = None | Some(value: T)

  /** The outcome of Rust code that may `panic!` (an explicit panic, a failed
      `unwrap`, an out-of-range slice or `unreachable!()`): either it finishes
      with a value or the thread panics. */
  datatype Checked<+T> = Done(value: T) | Panic
}
